=== FILE: README.md ===
# Isubata message log, modelled in Dafny

This project models the hybrid message log of the Isubata chat server
(`app.go`). Every message is stored twice:

- as a row of the MySQL `message` table;
- as a text entry `"<id>@<user id>@<time>@<content>"` at the head of a Redis
  list `messages:<channel>`, newest first.

Each user's read position in a channel is kept as a Redis string
`haveread:<user>:<channel>`. The model states, and proves, what the
handlers do to those three stores:

- `addMessage` / `postMessage` insert a row and push its entry;
- `getInitialize` truncates the tables, flushes Redis and replays every
  row;
- `queryResponse` / `getMessage` read new rows and move the cursor;
- `queryHaveRead` / `fetchUnread` report log length minus cursor;
- `getHistory` pages through the log twenty entries at a time;
- the avatar rules of `postProfile`, `postIcon` and `getIcon` accept an
  upload by its extension and serve it with a MIME type.

The stores are values: `Redis.Store` is two maps (lists and strings) and
`Sql.Db` holds the message rows in insertion order, the users, the
channel ids and the AUTO_INCREMENT counter. Ids come from the counter, so
insertion order is id order (`Sql.Valid`). The model takes
`SELECT * FROM message` and `SELECT id FROM channel` to return rows in
that order; neither query has an `ORDER BY` (see "Left out"). Handlers are pure functions
from stores to a `Result` and new stores; the panics of `splitMessage`
and the HTTP errors are `Failure` values. The central invariant is
`MessageLog.Consistent`: the table is well formed, every channel's log
holds exactly one decodable entry per row of that channel (newest
first), and every cursor is a decimal int64 between 0 and its log's
length.

Modules, in dependency order:

| file | module | what it holds |
|---|---|---|
| base.dfy | `Base` | `Int64`, `Option`, `Result`, `Failure`, two's-complement wrap-around, `Collect` |
| decimal.dfy | `Decimal` | `%d` formatting and `strconv.ParseInt(s, 10, 64)` / `Atoi` |
| strings.dfy | `Strings` | `strings.SplitN`, `LastIndexByte`, `HasSuffix`, and a `Join` to state round trips |
| timeformat.dfy | `TimeFormat` | `time.Format("2006/01/02 15:04:05")` |
| seqs.dfy | `Seqs` | reverse, take, filter, map, pairwise relation |
| codec.dfy | `Codec` | `keyHaveread`, `keyMessages`, `unifyMessage`, `splitMessage` |
| redis.dfy | `Redis` | LPUSH, LLEN, LRANGE, GET, SET, FLUSHDB |
| sql.dfy | `Sql` | the `message` insert and the `queryResponse` select |
| messagelog.dfy | `MessageLog` | cursors and the consistency invariant |
| writepath.dfy | `WritePath` | `addMessage`, `postMessage`, the reseed of `getInitialize` |
| readpath.dfy | `ReadPath` | `queryResponse`, `getMessage`, `queryHaveRead`, `fetchUnread` |
| history.dfy | `History` | `getHistory` |
| avatar.dfy | `Avatar` | extension check, stored name, icon MIME type |

Where a comment and the code could be read two ways, the model follows
the code:

- the unread count is `LLEN - cursor` in int64 arithmetic and is not
  clamped at 0;
- `getMessage` writes the cursor only when the answer is non-empty;
- the history page shows the timestamp text carried by the log entry, not
  the row's `created_at`;
- the log entry of `addMessage` is stamped with the process clock while
  the row gets the database's `NOW()`, so the model keeps two clocks.

## Model

| member | source | states |
|---|---|---|
| Decimal.ParseFormat | app.go:163-175 | `strconv.Atoi` reads back exactly the int64 that `%d` wrote, sign included |
| Decimal.FormatInjective | app.go:151-157 | two integers with the same `%d` text are equal |
| Decimal.FormatHasNo | app.go:159-161 | `%d` text holds only a minus sign and digits, so never `@` or `:` |
| Strings.LastIndexOf | app.go:853 | `LastIndexByte` is a position holding the byte with none after it, or -1 when the byte is absent |
| Strings.SplitNCount | app.go:164 | `SplitN(s, sep, n)` has `min(n, count of sep + 1)` pieces |
| Strings.SplitNPieces | app.go:164 | every piece but the last is free of the separator |
| Strings.JoinSplitN | app.go:164 | the pieces joined with the separator give back the split text |
| Strings.SplitNJoin | app.go:164 | splitting a join of `n` pieces, all but the last separator-free, into `n` gives the pieces back |
| TimeFormat.FormatHasNoAt | app.go:159-161 | the time layout never produces the entry delimiter `@` |
| TimeFormat.FormatLength | app.go:159-161 | a time with four-digit year formats to 19 characters |
| TimeFormat.FormatParse | app.go:159-161 | the formatted text of a time with in-range fields determines that time |
| Codec.KeyMessagesInjective | app.go:155-157 | two channels share a log key exactly when they are the same channel |
| Codec.KeyHavereadInjective | app.go:151-153 | two (user, channel) pairs share a cursor key exactly when they are equal |
| Codec.KeysDisjoint | app.go:151-157 | no cursor key is a log key |
| Codec.SplitUnify | app.go:159-177 | decoding an encoded message returns its id, user id and content (which may hold `@`) and the formatted time |
| Codec.SplitFields | app.go:163-177 | text with three `@`-free fields in front decodes exactly when the first two are int64 decimals, the fourth field being the content |
| Codec.SplitTooFewFields | app.go:163-175 | an entry with fewer than three `@` is a decoding failure (the panic on `split[1]` or `split[3]`) |
| Redis.LPush | app.go:209 | the value becomes the head, the list grows by one, other lists and all strings are unchanged |
| Redis.LRange | app.go:709 | for non-negative `start` and `stop`, an inclusive window clamped to the list: `max(0, min(stop+1, len) - start)` entries, entry `k` being list entry `start + k`; never more entries than the list holds |
| Redis.Set | app.go:602 | the key reads back the value; every other key and every list is unchanged |
| Redis.FlushDb | app.go:314 | every list is empty and every string key is absent |
| Sql.Insert | app.go:195-207 | the row is appended with the counter's current value as its id, which is larger than every earlier id, and the counter advances by one; the user and channel tables are unchanged and the table stays valid; the insert fails exactly when the counter has left the int64 range |
| Sql.SelectAfter | app.go:539-541 | `min(100, matching)` rows, all newer than `lastId` in the channel with an existing author, ids strictly descending, each a stored row; they are the highest ids: every matching row left out has a smaller id than every row returned |
| MessageLog.Cursor | app.go:620-626 | an absent cursor reads as 0; stored text reads as the int64 it parses to, and text that does not parse is the only failure |
| MessageLog.CursorSetGet | app.go:620-626 | a cursor written with SET reads back as written and every other cursor is unchanged |
| MessageLog.RowCountBound | app.go:194-207 | a valid table holds at most `MaxInt64` rows, so any channel's row count fits an int64 |
| MessageLog.LogLength | app.go:653-660 | in a consistent pair a channel's log length equals its row count and fits an int64 |
| WritePath.PushLeavesOtherLogs | app.go:209 | a push onto one channel's log leaves every other channel's log as it was |
| WritePath.AddMessage | app.go:194-215 | one row appended whose id is the counter's value, the counter advancing by one and the user and channel tables untouched; that channel's log gains one entry on top that decodes to the row's id, author and content; other logs and all cursors unchanged; fails exactly when ids are exhausted |
| WritePath.PostMessage | app.go:489-514 | an empty message or a channel id `Atoi` rejects is forbidden before any write; otherwise the result is exactly `addMessage` on the parsed channel and the session user |
| WritePath.PostMessageConsistent | app.go:489-514 | on a consistent pair, a non-empty message to a channel id `Atoi` accepts succeeds while ids remain and keeps the pair consistent; the new last row holds the message, the channel and the user, and heads that channel's log |
| WritePath.AddMessageMirrored | app.go:194-215 | after a write every log still mirrors its channel's rows |
| WritePath.AddMessageConsistent | app.go:194-215 | a write preserves the consistency invariant |
| WritePath.ReplayLog | app.go:321-326 | replaying rows in table order leaves each channel's log as that channel's entries newest first, on top of what was there |
| WritePath.Reinitialize | app.go:310-326 | after the reseed every log is its channel's surviving rows encoded newest first and no cursor remains; a row survives exactly when its id is at most 10000, a user exactly when its id is at most 1000 (with its profile unchanged), a channel exactly when its id is at most 10; the id counter is not reset |
| WritePath.RebuiltLogMirrors | app.go:321-326 | a log rebuilt from a channel's rows mirrors them |
| WritePath.TruncateValid | app.go:310-313 | the DELETE statements keep the table valid |
| WritePath.ReinitializeConsistent | app.go:310-326 | from any cache contents the reseed leaves a consistent pair |
| WritePath.ReinitializeIdempotent | app.go:310-326 | running the reseed twice gives the same tables and cache as running it once |
| ReadPath.RowItems | app.go:557-561 | one rendered item per row, item `k` showing row `k` |
| ReadPath.Newest | app.go:539-541 | the newest `min(100, matching)` rows in table order: matching rows, authored, ids ascending, all newer than `lastId` in the channel; every matching row left out has a smaller id than every row kept |
| ReadPath.NewestReversesSelect | app.go:539-575 | reversing the query's newest-first rows gives the newest rows oldest first |
| ReadPath.SwapReverse | app.go:572-575 | the swap loop reverses the array |
| ReadPath.QueryResponse | app.go:536-578 | the answer is the newest hundred matching rows rendered oldest first: at most 100 items, ids ascending and above `lastId`; `read` is the log length |
| ReadPath.MarkRead | app.go:601-607 | a non-empty answer sets this user's cursor in this channel to the length read; an empty one changes nothing; other cursors and all logs are unchanged |
| ReadPath.MarkReadConsistent | app.go:601-607 | moving a cursor to the log length keeps the pair consistent and never moves the cursor backwards |
| ReadPath.GetMessage | app.go:580-610 | no session user is forbidden; a bad query parameter fails; with a user and two int64 parameters the request succeeds, the answer is the newest rows and the cursor moves only when the answer is non-empty, never backwards on a consistent pair |
| ReadPath.UnreadOf | app.go:647-663 | the count fails exactly when the cursor is corrupt, and whenever `LLEN - cursor` fits an int64 it equals that difference, negative values included |
| ReadPath.UnreadNotClamped | app.go:653-660 | a cursor past the end of the log gives a negative count, by exactly the overshoot |
| Base.Collect | app.go:646-651 | a loop that returns on the first error: all values in order, or the failure of the first failing element, every earlier one having succeeded |
| ReadPath.UnreadCounts | app.go:646-666 | one count per channel in table order; the first corrupt cursor fails the request |
| ReadPath.FetchUnread | app.go:628-668 | no session user is forbidden; otherwise the per-channel counts |
| ReadPath.UnreadConsistent | app.go:646-666 | on a consistent pair every count succeeds and equals the channel's rows minus the cursor, never negative |
| ReadPath.MarkReadClearsUnread | app.go:601-607 | after a non-empty poll the channel's unread count is 0 |
| History.MaxPage | app.go:701-704 | the fewest pages of 20 that hold the log, at least 1 |
| History.PageNumber | app.go:683-692 | an absent page is 1; otherwise an int64 of at least 1, else a bad request |
| History.DecodeEntry | app.go:716-724 | an entry decodes when it splits and its author exists; the item carries the entry's id, the author's profile, the stored time text and the content |
| History.DecodePageResult | app.go:716-724 | a page decodes exactly when every entry does; a failed page reports the failure of its last failing entry, every entry after it decoding |
| History.CollectReversed | app.go:716-724 | a loop from the last element down stops at the last failing element, every later one having succeeded |
| History.PageEntries | app.go:709 | the window `[(page-1)*20, page*20-1]` of the log, clamped to its end |
| History.ServePage | app.go:695-724 | a page past `maxPage` is a bad request; a page within `maxPage` is served exactly when its window decodes, with the decoded items, and otherwise fails with the decoding's own error (a malformed entry or an unknown author, never a bad request); an accepted page carries `maxPage` and the page number |
| History.GetHistory | app.go:670-692 | a channel id that is not a positive int64, or a bad page number, is a bad request; otherwise the page is served |
| History.PageWindow | app.go:701-724 | an accepted page holds `min(20, len - (page-1)*20)` items, the window's entries decoded last to first |
| History.FortyFiveEntries | app.go:695-724 | with 45 entries `maxPage` is 3, page 4 is refused and page 3, when it is served, has 5 items |
| History.PageRows | app.go:709-724 | every item of a page of a mirroring log shows the row at `max(0, n - page*20) + k` |
| History.PageOfConsistent | app.go:709-724 | on a consistent pair an accepted page shows its block of rows oldest first |
| History.PageNeverMalformed | app.go:716-718 | on a consistent pair a page never fails to decode |
| History.PageServed | app.go:701-724 | on a consistent pair whose authors all exist every page in `1..maxPage` is served |
| Avatar.Extension | app.go:853-863 | an accepted extension is one of the four and is the name's suffix after its last `.`; otherwise a bad request |
| Avatar.ExtensionAccepts | app.go:1000-1010 | a file name passes exactly when it ends with `.jpg`, `.jpeg`, `.png` or `.gif` |
| Avatar.ExtensionOfName | app.go:1000-1010 | any stem followed by an accepted extension passes with that extension |
| Avatar.IconMimeOfExtension | app.go:954-962 | `getIcon` finds a MIME type exactly for the names the upload check accepts, `image/jpeg`, `image/png` or `image/gif` by extension |
| Avatar.StoredAvatar | app.go:1000-1027 | no file stores nothing; a bad extension or more than 1 MiB is a bad request; an empty file with an accepted extension succeeds and stores nothing; an accepted non-empty file is stored as digest then extension |
| Avatar.StoredAvatarServed | app.go:954-962 | a stored avatar is served with the MIME type of the uploaded extension |

## Left out

- I/O: MySQL and Redis calls are replaced by the `Db` and `Store` values. Their connection errors and retry loops are not modelled, except the exhaustion of the AUTO_INCREMENT counter.
- Concurrency: each handler runs alone. The race between id assignment and push order in concurrent `postMessage` calls is not modelled.
- Clocks: `time.Now()` and the database's `NOW()` are parameters of `WritePath.AddMessage`. The `time.Sleep` of `fetchUnread` and the `time.After` of `getInitialize` are left out.
- Sessions: `ensureLogin` and the session cookie are left out. `getMessage` and `fetchUnread` take the session user id, with 0 meaning no user. `WritePath.PostMessage` and `getHistory` assume a logged-in user: `PostMessage` takes the id of the user `ensureLogin` returned and does not treat 0 as "no user". Registration, login, password hashing and `randomString` are left out too.
- Rendering: echo routing, templates, JSON encoding and the New Relic segments are left out. A rendered message is the `ReadPath.Item` record. `getHistory`'s list of channels for the sidebar is left out.
- SHA-1: the hex digest of an avatar's bytes is a parameter of `Avatar.StoredAvatar`. Only the byte count of an upload is modelled.
- Files and fan-out: the icon files, the multipart fan-out to `hosts` and the `UPDATE user` of `postProfile` are left out. So are the `image` table read of `getInitialize` and `getIcon`'s `If-Modified-Since` branch. `Avatar.IconMime` models only the MIME choice of `getIcon`'s image-table fallback.
- `queryResponse`'s error result: `getMessage` ignores it, and with no I/O failures modelled it cannot arise.
- `hash`, `tAdd` and `tRange` are not used by the message core.
- Row order: `SELECT * FROM message` (app.go:316) and `SELECT id FROM channel` (app.go:615) have no `ORDER BY`. The model assumes that MySQL returns them in primary-key order, which is insertion order here. The log rebuilt by `WritePath.Reinitialize` and the order of `ReadPath.FetchUnread`'s counts rest on this assumption.
- TimeFormat.FormatParse: holds only for times whose fields are in range with a four-digit year. Go's formatting of years outside 0..9999 is modelled by `TimeFormat.PadInt` but not proved invertible.
- History.MaxPage: `cnt+N-1` and `page*N` are int64 in Go. The model computes them unbounded, which is the same for any log length that fits an int64 less 19.
- ReadPath.GetMessage: the cursor written is the length that LLEN returned. The model states the `MarkRead` equality only when that length fits an int64, which `MessageLog.LogLength` shows for a consistent pair.
- History.DecodeEntry: the user lookup of `jsonifyMessage` has only one failure, an unknown user. Other database errors are not modelled.

=== FILE: avatar.dfy ===
/** The avatar file-name rules of `postProfile`, `postIcon` and `getIcon`:
    an upload is accepted by the extension after its last `.`, stored as
    `<hex sha1><ext>`, and served with the MIME type its suffix names. */
module Avatar {
  import opened Base
  import opened Strings

  /** `avatarMaxBytes`: the largest accepted upload, 1 MiB. */
  const AvatarMaxBytes: nat := 1 * 1024 * 1024

  /** The extensions the upload handlers accept. */
  predicate AllowedExt(ext: string) {
    ext == ".jpg" || ext == ".jpeg" || ext == ".png" || ext == ".gif"
  }

  /** `name` ends with one of the accepted extensions. */
  predicate HasImageSuffix(name: string) {
    HasSuffix(name, ".jpg") || HasSuffix(name, ".jpeg") || HasSuffix(name, ".png") || HasSuffix(name, ".gif")
  }

  /** The MIME type of an accepted extension. */
  function MimeType(ext: string): string
    requires AllowedExt(ext)
  {
    if ext == ".jpg" || ext == ".jpeg" then "image/jpeg"
    else if ext == ".png" then "image/png"
    else "image/gif"
  }

  /** The extension check of the upload handlers: the text from the last
      `.` of the client's file name, which must be an accepted one. */
  function Extension(filename: string): (r: Result<string>)
    ensures r.Ok? ==> AllowedExt(r.value) && HasSuffix(filename, r.value)
    ensures r.Ok? ==> forall k :: |filename| - |r.value| < k < |filename| ==> filename[k] != '.'
    ensures r.Err? ==> r.error == BadRequest
  {
    var dot := LastIndexOf(filename, '.');
    if dot < 0 then Err(BadRequest)
    else
      var ext := filename[dot..];
      if AllowedExt(ext) then Ok(ext) else Err(BadRequest)
  }

  /** An accepted extension holds a `.` only in front. */
  lemma {:induction false} AllowedExtDot(ext: string)
    requires AllowedExt(ext)
    ensures |ext| >= 1 && ext[0] == '.'
    ensures forall k :: 1 <= k < |ext| ==> ext[k] != '.'
  {
  }

  /** In a name ending with an accepted extension, the last `.` is the
      one that starts it. */
  lemma {:induction false} LastDotOfSuffix(name: string, ext: string)
    requires AllowedExt(ext) && HasSuffix(name, ext)
    ensures LastIndexOf(name, '.') == |name| - |ext|
  {
    AllowedExtDot(ext);
    var j := |name| - |ext|;
    assert name[j] == ext[0];
    forall k | j < k < |name|
      ensures name[k] != '.'
    {
      assert name[k] == ext[k - j];
    }
  }

  /** Any name followed by an accepted extension passes the check, and
      the extension is the one it ends with. */
  lemma {:induction false} ExtensionOfName(stem: string, ext: string)
    requires AllowedExt(ext)
    ensures Extension(stem + ext) == Ok(ext)
  {
    var name := stem + ext;
    assert name[|stem|..] == ext;
    LastDotOfSuffix(name, ext);
  }

  /** A file name passes the check exactly when it ends with one of the
      accepted extensions. */
  lemma {:induction false} ExtensionAccepts(filename: string)
    ensures Extension(filename).Ok? <==> HasImageSuffix(filename)
  {
    if HasImageSuffix(filename) {
      var ext :| ext in [".jpg", ".jpeg", ".png", ".gif"] && HasSuffix(filename, ext);
      ExtensionOfSuffix(filename, ext);
    }
  }

  /** A name ending with an accepted extension passes with that one. */
  lemma {:induction false} ExtensionOfSuffix(filename: string, ext: string)
    requires AllowedExt(ext) && HasSuffix(filename, ext)
    ensures Extension(filename) == Ok(ext)
  {
    LastDotOfSuffix(filename, ext);
  }

  /** The image table's fallback in `getIcon`: the MIME type chosen by the
      first suffix test that matches, and not found otherwise. */
  function IconMime(name: string): (r: Result<string>)
    ensures r.Err? ==> r.error == NotFound
  {
    if HasSuffix(name, ".jpg") || HasSuffix(name, ".jpeg") then Ok("image/jpeg")
    else if HasSuffix(name, ".png") then Ok("image/png")
    else if HasSuffix(name, ".gif") then Ok("image/gif")
    else Err(NotFound)
  }

  /** `getIcon` serves exactly the names the upload check accepts, with
      the MIME type of their extension. */
  lemma {:induction false} IconMimeOfExtension(name: string)
    ensures IconMime(name).Ok? <==> Extension(name).Ok?
    ensures Extension(name).Ok? ==> IconMime(name) == Ok(MimeType(Extension(name).value))
  {
    ExtensionAccepts(name);
    if Extension(name).Ok? {
      var ext := Extension(name).value;
      SuffixesExclusive(name, ext);
    }
  }

  /** A name ends with at most one of the accepted extensions. */
  lemma {:induction false} SuffixesExclusive(name: string, ext: string)
    requires AllowedExt(ext) && HasSuffix(name, ext)
    ensures forall e :: AllowedExt(e) && HasSuffix(name, e) ==> e == ext
  {
    forall e | AllowedExt(e) && HasSuffix(name, e)
      ensures e == ext
    {
      LastDotOfSuffix(name, e);
      LastDotOfSuffix(name, ext);
      assert e == name[|name| - |e|..] == ext;
    }
  }

  /** The file part of an upload: the client's file name and the number
      of bytes read from it. */
  datatype Upload = Upload(filename: string, size: nat)

  /** The avatar step of `postProfile` and `postIcon`, given the hex
      SHA-1 digest of the bytes: no file part stores nothing; otherwise the
      extension is checked, then the size; an accepted non-empty file is
      stored as `<digest><ext>`, an empty one is not stored. */
  function StoredAvatar(upload: Option<Upload>, digest: string): (r: Result<Option<string>>)
    ensures upload.None? ==> r == Ok(None)
    ensures upload.Some? && Extension(upload.value.filename).Err? ==> r == Err(BadRequest)
    ensures upload.Some? && upload.value.size > AvatarMaxBytes ==> r == Err(BadRequest)
    ensures r.Ok? && r.value.Some? ==>
      upload.Some? && 0 < upload.value.size <= AvatarMaxBytes &&
      Extension(upload.value.filename).Ok? &&
      r.value.value == digest + Extension(upload.value.filename).value
    ensures (upload.Some? && 0 < upload.value.size <= AvatarMaxBytes && Extension(upload.value.filename).Ok?)
      ==> r.Ok? && r.value.Some?
    ensures upload.Some? && upload.value.size == 0 && Extension(upload.value.filename).Ok? ==> r == Ok(None)
    ensures r.Err? ==> r.error == BadRequest
  {
    match upload
    case None => Ok(None)
    case Some(u) =>
      match Extension(u.filename)
      case Err(e) => Err(e)
      case Ok(ext) =>
        if u.size > AvatarMaxBytes then Err(BadRequest)
        else if u.size == 0 then Ok(None)
        else Ok(Some(digest + ext))
  }

  /** A stored avatar is served back by `getIcon` with the MIME type of
      the uploaded file's extension, whatever the digest. */
  lemma {:induction false} StoredAvatarServed(upload: Option<Upload>, digest: string, name: string)
    requires StoredAvatar(upload, digest) == Ok(Some(name))
    ensures upload.Some? && Extension(upload.value.filename).Ok?
    ensures IconMime(name) == Ok(MimeType(Extension(upload.value.filename).value))
  {
    var ext := Extension(upload.value.filename).value;
    ExtensionOfName(digest, ext);
    IconMimeOfExtension(name);
  }
}

=== FILE: base.dfy ===
/** Shared vocabulary of the model: Go's 64-bit integers and the failure
    results that stand for the handlers' error returns and for panics. */
module Base {

  const MinInt64: int := -0x8000_0000_0000_0000
  const MaxInt64: int := 0x7fff_ffff_ffff_ffff

  /** Go's `int64` (and `int` on a 64-bit platform). */
  type Int64 = x: int | MinInt64 <= x <= MaxInt64

  datatype Option<+T> = None | Some(value: T)

  /** Why an operation of the message core did not produce a value. */
  datatype Failure =
    | BadRequest          // echo's 400 (`ErrBadReqeust`)
    | Forbidden           // 403: no session user, empty message, bad channel id on post
    | NotFound            // 404: icon without a known image suffix
    | InvalidParameter    // a query parameter that strconv rejects; the raw error is returned
    | MalformedEntry      // `splitMessage` panics on a log entry it cannot decode
    | CorruptCursor       // a read cursor whose stored text is not an int64
    | UnknownUser         // the user lookup of a history entry finds no row
    | StoreError          // the durable store refuses an insert

  datatype Result<+T> = Ok(value: T) | Err(error: Failure)

  function Min(a: int, b: int): int { if a <= b then a else b }
  function Max(a: int, b: int): int { if a <= b then b else a }

  /** Go's int64 subtraction and addition: the mathematical result taken
      modulo 2^64 into the signed range (two's-complement wrap-around). */
  function Wrap64(x: int): (r: Int64)
    ensures MinInt64 <= x <= MaxInt64 ==> r == x
    ensures (x - r) % 0x1_0000_0000_0000_0000 == 0
  {
    (x - MinInt64) % 0x1_0000_0000_0000_0000 + MinInt64
  }

  /** `f` applied to the elements from position `from` on, in order,
      stopping at the first error. */
  function CollectFrom<A, B>(s: seq<A>, f: A -> Result<B>, from: nat): (r: Result<seq<B>>)
    requires from <= |s|
    ensures r.Ok? <==> forall k :: from <= k < |s| ==> f(s[k]).Ok?
    ensures r.Ok? ==> |r.value| == |s| - from && forall k :: from <= k < |s| ==> f(s[k]) == Ok(r.value[k - from])
    ensures r.Err? ==>
      exists k :: from <= k < |s| && f(s[k]) == Err(r.error) && (forall j :: from <= j < k ==> f(s[j]).Ok?)
    decreases |s| - from
  {
    if from == |s| then Ok([])
    else
      match f(s[from])
      case Err(e) => Err(e)
      case Ok(x) =>
        match CollectFrom(s, f, from + 1)
        case Err(e) => Err(e)
        case Ok(rest) => Ok([x] + rest)
  }

  /** `f` applied to every element in order, as a Go loop that returns on
      the first error: all the values, or the first failure. */
  function Collect<A, B>(s: seq<A>, f: A -> Result<B>): (r: Result<seq<B>>)
    ensures r.Ok? <==> forall k :: 0 <= k < |s| ==> f(s[k]).Ok?
    ensures r.Ok? ==> |r.value| == |s| && forall k :: 0 <= k < |s| ==> f(s[k]) == Ok(r.value[k])
    ensures r.Err? ==>
      exists k :: 0 <= k < |s| && f(s[k]) == Err(r.error) && (forall j :: 0 <= j < k ==> f(s[j]).Ok?)
  {
    CollectFrom(s, f, 0)
  }
}

=== FILE: codec.dfy ===
/** The Redis keys of the message core and the text form of a log entry
    (`keyHaveread`, `keyMessages`, `unifyMessage`, `splitMessage`). */
module Codec {
  import opened Base
  import opened Decimal
  import opened Strings
  import opened TimeFormat

  /** What `splitMessage` returns: id, user id, content and the timestamp
      text exactly as it was stored. */
  datatype LogEntry = LogEntry(id: Int64, userId: Int64, content: string, createdAt: string)

  /** `keyHaveread(user, ch)`: "haveread:<user>:<ch>". */
  function KeyHaveread(user: Int64, ch: Int64): string {
    "haveread:" + FormatInt(user) + ":" + FormatInt(ch)
  }

  /** `keyMessages(ch)`: "messages:<ch>". */
  function KeyMessages(ch: Int64): string {
    "messages:" + FormatInt(ch)
  }

  /** Each channel has its own log key. */
  lemma {:induction false} KeyMessagesInjective(a: Int64, b: Int64)
    ensures KeyMessages(a) == KeyMessages(b) <==> a == b
  {
    if KeyMessages(a) == KeyMessages(b) {
      assert FormatInt(a) == KeyMessages(a)[9..];
      assert FormatInt(b) == KeyMessages(b)[9..];
      FormatInjective(a, b);
    }
  }

  /** Each (user, channel) pair has its own cursor key. */
  lemma {:induction false} KeyHavereadInjective(u: Int64, c: Int64, u': Int64, c': Int64)
    ensures KeyHaveread(u, c) == KeyHaveread(u', c') <==> u == u' && c == c'
  {
    if KeyHaveread(u, c) == KeyHaveread(u', c') {
      var fu, fc, fu', fc' := FormatInt(u), FormatInt(c), FormatInt(u'), FormatInt(c');
      var t, t' := fu + [':'] + fc, fu' + [':'] + fc';
      assert KeyHaveread(u, c) == "haveread:" + t;
      assert KeyHaveread(u', c') == "haveread:" + t';
      assert t == KeyHaveread(u, c)[9..];
      assert t' == KeyHaveread(u', c')[9..];
      FormatHasNo(u, ':');
      FormatHasNo(u', ':');
      SplitAtFirst(fu, fc, fu', fc', ':');
      FormatInjective(u, u');
      FormatInjective(c, c');
    }
  }

  /** Cursor keys and log keys never collide. */
  lemma {:induction false} KeysDisjoint(u: Int64, c: Int64, ch: Int64)
    ensures KeyHaveread(u, c) != KeyMessages(ch)
  {
    assert KeyHaveread(u, c)[0] == 'h' && KeyMessages(ch)[0] == 'm';
  }

  /** `unifyMessage`: `fmt.Sprintf("%d@%d@%s@%s", ...)` with the
      timestamp in the layout "2006/01/02 15:04:05". */
  function Unify(id: Int64, userId: Int64, content: string, createdAt: DateTime): string {
    FormatInt(id) + "@" + FormatInt(userId) + "@" + Format(createdAt) + "@" + content
  }

  /** `splitMessage`: `strings.SplitN(unified, "@", 4)`, then `strconv.Atoi`
      of the first two pieces; every panic (a parse error, or a piece
      indexed past the end of the split) is `MalformedEntry`. */
  function Split(unified: string): (r: Result<LogEntry>)
    ensures r.Err? ==> r.error == MalformedEntry
  {
    var parts := SplitN(unified, '@', 4);
    match ParseInt(parts[0])
    case None => Err(MalformedEntry)
    case Some(id) =>
      if |parts| < 2 then Err(MalformedEntry)
      else
        match ParseInt(parts[1])
        case None => Err(MalformedEntry)
        case Some(uid) =>
          if |parts| < 4 then Err(MalformedEntry)
          else Ok(LogEntry(id, uid, parts[3], parts[2]))
  }

  /** An entry with fewer than three delimiters cannot be decoded. */
  lemma {:induction false} SplitTooFewFields(e: string)
    requires Count(e, '@') < 3
    ensures Split(e) == Err(MalformedEntry)
  {
    SplitNCount(e, '@', 4);
  }

  /** Decoding text that has three '@'-free fields in front: it succeeds
      exactly when the first two fields are int64 decimals, and then the
      fourth field, whatever '@'s it holds, is the content. */
  lemma {:induction false} SplitFields(a: string, b: string, at: string, content: string)
    requires '@' !in a && '@' !in b && '@' !in at
    ensures Split(a + "@" + b + "@" + at + "@" + content) ==
      if ParseInt(a).Some? && ParseInt(b).Some?
      then Ok(LogEntry(ParseInt(a).value, ParseInt(b).value, content, at))
      else Err(MalformedEntry)
  {
    var parts := [a, b, at, content];
    assert Join(parts, '@') == a + "@" + b + "@" + at + "@" + content by {
      assert JoinFrom(parts, '@', 3) == content;
      assert JoinFrom(parts, '@', 2) == at + "@" + content;
      assert JoinFrom(parts, '@', 1) == b + "@" + (at + "@" + content);
    }
    SplitNJoin(parts, '@');
  }

  /** Round trip: decoding an encoded message gives back its id, user id
      and content unchanged (content may contain '@'), and the timestamp
      as formatted. */
  lemma {:induction false} SplitUnify(id: Int64, userId: Int64, content: string, createdAt: DateTime)
    ensures Split(Unify(id, userId, content, createdAt)) ==
      Ok(LogEntry(id, userId, content, Format(createdAt)))
  {
    FormatHasNo(id, '@');
    FormatHasNo(userId, '@');
    FormatHasNoAt(createdAt);
    ParseFormat(id);
    ParseFormat(userId);
    SplitFields(FormatInt(id), FormatInt(userId), Format(createdAt), content);
  }
}

=== FILE: decimal.dfy ===
/** Decimal text of integers as Go's `strconv` and `fmt` handle it:
    `%d` formatting and `strconv.Atoi` / `strconv.ParseInt(s, 10, 64)`
    parsing, which on a 64-bit platform accept the same strings. */
module Decimal {
  import opened Base

  predicate IsDigit(c: char) { '0' <= c <= '9' }

  predicate AllDigits(s: string) {
    forall i :: 0 <= i < |s| ==> IsDigit(s[i])
  }

  function DigitChar(d: nat): (c: char)
    requires d < 10
    ensures IsDigit(c)
    ensures c == '0' <==> d == 0
  {
    (d + '0' as int) as char
  }

  function DigitValue(c: char): nat
    requires IsDigit(c)
  {
    c as int - '0' as int
  }

  /** The decimal digits of `n`, most significant first, without leading
      zeros ("0" for zero). */
  function Digits(n: nat): (s: string)
    ensures |s| >= 1 && AllDigits(s)
    ensures s[0] == '0' <==> n == 0
  {
    if n < 10 then [DigitChar(n)] else Digits(n / 10) + [DigitChar(n % 10)]
  }

  /** The number a string of decimal digits denotes (leading zeros allowed). */
  function ValueOf(s: string): nat
    requires AllDigits(s)
  {
    if |s| == 0 then 0 else ValueOf(s[..|s| - 1]) * 10 + DigitValue(s[|s| - 1])
  }

  /** The digits of `n` denote `n`. */
  lemma {:induction false} ValueOfDigits(n: nat)
    ensures ValueOf(Digits(n)) == n
  {
    if n >= 10 {
      var s := Digits(n);
      assert s[..|s| - 1] == Digits(n / 10);
      ValueOfDigits(n / 10);
    }
  }

  /** A zero in front of a digit string does not change its value. */
  lemma {:induction false} ValueOfLeadingZero(s: string)
    requires AllDigits(s)
    ensures AllDigits(['0'] + s) && ValueOf(['0'] + s) == ValueOf(s)
  {
    if |s| > 0 {
      var t := ['0'] + s;
      assert t[..|t| - 1] == ['0'] + s[..|s| - 1];
      ValueOfLeadingZero(s[..|s| - 1]);
    }
  }

  /** `fmt.Sprintf("%d", x)` and `strconv.FormatInt(x, 10)`. */
  function FormatInt(x: int): (s: string)
    ensures |s| >= 1
    ensures forall i :: 0 <= i < |s| ==> IsDigit(s[i]) || (i == 0 && s[i] == '-')
    ensures s[0] == '-' <==> x < 0
  {
    if x < 0 then "-" + Digits(-x) else Digits(x)
  }

  /** `s[lo..hi]` is all decimal digits. */
  predicate DigitsBetween(s: string, lo: nat, hi: nat) {
    forall i :: lo <= i < hi && i < |s| ==> IsDigit(s[i])
  }

  /** The number the digits `s[lo..hi]` denote, read by position. */
  function ValueBetween(s: string, lo: nat, hi: nat): nat
    requires lo <= hi <= |s| && DigitsBetween(s, lo, hi)
    decreases hi - lo
  {
    if hi == lo then 0 else ValueBetween(s, lo, hi - 1) * 10 + DigitValue(s[hi - 1])
  }

  lemma {:induction false} ValueBetweenSlice(s: string, lo: nat, hi: nat)
    requires lo <= hi <= |s| && DigitsBetween(s, lo, hi)
    ensures AllDigits(s[lo..hi]) && ValueBetween(s, lo, hi) == ValueOf(s[lo..hi])
    decreases hi - lo
  {
    if hi > lo {
      ValueBetweenSlice(s, lo, hi - 1);
      var t := s[lo..hi];
      assert t[..|t| - 1] == s[lo..hi - 1];
    }
  }

  lemma {:induction false} ValueBetweenCopy(s: string, lo: nat, t: string, n: nat)
    requires n <= |t| && lo + |t| <= |s|
    requires forall k :: 0 <= k < |t| ==> s[lo + k] == t[k]
    requires AllDigits(t)
    ensures DigitsBetween(s, lo, lo + n) && DigitsBetween(t, 0, n)
    ensures ValueBetween(s, lo, lo + n) == ValueBetween(t, 0, n)
  {
    if n > 0 {
      ValueBetweenCopy(s, lo, t, n - 1);
      assert s[lo + n - 1] == t[n - 1];
    }
  }

  /** Digits copied into `s` at `lo` are read back there as their value. */
  lemma {:induction false} ValueBetweenShift(s: string, lo: nat, t: string)
    requires lo + |t| <= |s|
    requires forall k :: 0 <= k < |t| ==> s[lo + k] == t[k]
    requires AllDigits(t)
    ensures DigitsBetween(s, lo, lo + |t|) && ValueBetween(s, lo, lo + |t|) == ValueOf(t)
  {
    ValueBetweenCopy(s, lo, t, |t|);
    assert t[0..|t|] == t;
    ValueBetweenSlice(t, 0, |t|);
  }

  /** `strconv.ParseInt(s, 10, 64)`: an optional `+` or `-`, at least one
      decimal digit and nothing else, denoting a value in the int64 range.
      `None` stands for the returned error (syntax or range). */
  function ParseInt(s: string): (r: Option<Int64>)
    ensures r.Some? ==> |s| > 0 && forall i :: 1 <= i < |s| ==> IsDigit(s[i])
  {
    if |s| == 0 then None
    else
      var lo := if s[0] == '+' || s[0] == '-' then 1 else 0;
      if lo == |s| || !DigitsBetween(s, lo, |s|) then None
      else
        var n: int := ValueBetween(s, lo, |s|);
        var v := if s[0] == '-' then -n else n;
        if MinInt64 <= v <= MaxInt64 then Some(v) else None
  }

  /** Parsing the formatted text of any int64 gives it back. */
  lemma {:induction false} ParseDigits(n: nat)
    requires n <= MaxInt64
    ensures ParseInt(Digits(n)) == Some(n)
  {
    var s := Digits(n);
    assert s[0..|s|] == s;
    ValueBetweenSlice(s, 0, |s|);
    ValueOfDigits(n);
  }

  lemma {:induction false} ParseMinusDigits(n: nat)
    requires 0 < n <= -MinInt64
    ensures ParseInt("-" + Digits(n)) == Some(-(n as int))
  {
    var s := "-" + Digits(n);
    assert s[1..|s|] == Digits(n);
    ValueBetweenSlice(s, 1, |s|);
    ValueOfDigits(n);
  }

  /** `strconv.ParseInt` reads back what `%d` wrote, for every int64. */
  lemma {:induction false} ParseFormat(x: Int64)
    ensures ParseInt(FormatInt(x)) == Some(x)
  {
    if x < 0 {
      ParseMinusDigits(-(x as int));
    } else {
      ParseDigits(x);
    }
  }

  /** Distinct naturals have distinct digit strings. */
  lemma {:induction false} DigitsInjective(a: nat, b: nat)
    requires Digits(a) == Digits(b)
    ensures a == b
  {
    ValueOfDigits(a);
    ValueOfDigits(b);
  }

  /** Distinct integers have distinct decimal texts. */
  lemma {:induction false} FormatInjective(a: int, b: int)
    requires FormatInt(a) == FormatInt(b)
    ensures a == b
  {
    if a < 0 {
      var s := FormatInt(a);
      assert Digits(-a) == s[1..];
      assert Digits(-b) == s[1..];
      DigitsInjective(-a, -b);
    } else {
      DigitsInjective(a, b);
    }
  }

  /** Formatted integers never contain a character outside `-0123456789`. */
  lemma {:induction false} FormatHasNo(x: int, c: char)
    requires c != '-' && !IsDigit(c)
    ensures c !in FormatInt(x)
  {
  }
}

=== FILE: history.dfy ===
/** `getHistory`: the channel log read twenty entries at a time, newest
    page first, each page shown oldest first. */
module History {
  import opened Base
  import opened Decimal
  import opened Seqs
  import opened Codec
  import opened Redis
  import opened Sql
  import opened MessageLog
  import opened ReadPath

  /** `(cnt+N-1)/N` with `N = 20` entries per page, at least 1: the
      fewest pages that hold the whole log, and a single empty page for an
      empty log. */
  function MaxPage(cnt: nat): (r: nat)
    ensures r >= 1
    ensures cnt <= r * 20
    ensures r == 1 || (r - 1) * 20 < cnt
  {
    var m := (cnt + 20 - 1) / 20;
    if m == 0 then 1 else m
  }

  /** The `page` query parameter: absent is page 1; otherwise it must be
      an int64 of at least 1. */
  function PageNumber(text: string): (r: Result<Int64>)
    ensures text == "" ==> r == Ok(1)
    ensures text != "" ==> (r.Ok? <==> ParseInt(text).Some? && ParseInt(text).value >= 1)
    ensures text != "" && r.Ok? ==> r.value == ParseInt(text).value
    ensures r.Ok? ==> r.value >= 1
    ensures r.Err? ==> r.error == BadRequest
  {
    if text == "" then Ok(1)
    else
      match ParseInt(text)
      case None => Err(BadRequest)
      case Some(p) => if p < 1 then Err(BadRequest) else Ok(p)
  }

  /** One log entry of the page: `splitMessage` (which may panic), then
      `jsonifyMessage`, whose user lookup fails for an unknown author. The
      date is the entry's own timestamp text. */
  function DecodeEntry(db: Db, e: string): (r: Result<Item>)
    ensures r.Err? ==> (r.error == MalformedEntry <==> Split(e).Err?)
    ensures r.Err? ==> r.error == MalformedEntry || r.error == UnknownUser
    ensures r.Ok? <==> Split(e).Ok? && Split(e).value.userId in db.users
    ensures r.Ok? ==> var le := Split(e).value;
      r.value == Item(le.id, db.users[le.userId], le.createdAt, le.content)
  {
    match Split(e)
    case Err(x) => Err(x)
    case Ok(le) =>
      if le.userId in db.users then Ok(Item(le.id, db.users[le.userId], le.createdAt, le.content))
      else Err(UnknownUser)
  }

  function Decoder(db: Db): string -> Result<Item> {
    e => DecodeEntry(db, e)
  }

  /** The loop `for i := len(unifieds) - 1; i >= 0; i--`: entries decoded
      from the last to the first, stopping at the first failure. */
  function DecodePage(db: Db, entries: seq<string>): (r: Result<seq<Item>>)
    ensures r.Ok? ==> |r.value| == |entries|
    ensures r.Ok? ==> forall k :: 0 <= k < |entries| ==>
      DecodeEntry(db, entries[|entries| - 1 - k]) == Ok(r.value[k])
  {
    var rev := Reverse(entries);
    var r := Collect(rev, Decoder(db));
    assert forall k :: 0 <= k < |entries| ==> entries[k] == rev[|entries| - 1 - k];
    r
  }

  /** A page decodes exactly when each of its entries does, and a failed
      page reports the failure of one of them. */
  lemma {:induction false} DecodePageResult(db: Db, entries: seq<string>)
    ensures DecodePage(db, entries).Ok? <==> forall k :: 0 <= k < |entries| ==> DecodeEntry(db, entries[k]).Ok?
    ensures DecodePage(db, entries).Err? ==>
      exists k :: 0 <= k < |entries| && DecodeEntry(db, entries[k]) == Err(DecodePage(db, entries).error) &&
        (forall j :: k < j < |entries| ==> DecodeEntry(db, entries[j]).Ok?)
  {
    CollectReversed(entries, Decoder(db));
  }

  /** Collecting a sequence back to front stops at its last failing
      element: every element after it succeeded. */
  lemma {:induction false} CollectReversed<A, B>(s: seq<A>, f: A -> Result<B>)
    ensures Collect(Reverse(s), f).Ok? <==> forall k :: 0 <= k < |s| ==> f(s[k]).Ok?
    ensures Collect(Reverse(s), f).Err? ==>
      exists k :: 0 <= k < |s| && f(s[k]) == Err(Collect(Reverse(s), f).error) &&
        (forall j :: k < j < |s| ==> f(s[j]).Ok?)
  {
    var rev := Reverse(s);
    ReversedIndices(s);
    if Collect(rev, f).Err? {
      ReversedFailure(s, rev, f, Collect(rev, f).error);
    }
  }

  lemma {:induction false} ReversedIndices<A>(s: seq<A>)
    ensures forall k :: 0 <= k < |s| ==> s[k] == Reverse(s)[|s| - 1 - k]
  {
  }

  /** The first failure of the reversed order is the last of the original. */
  lemma {:induction false} ReversedFailure<A, B>(s: seq<A>, rev: seq<A>, f: A -> Result<B>, e: Failure)
    requires |rev| == |s| && forall k :: 0 <= k < |s| ==> rev[k] == s[|s| - 1 - k]
    requires exists i :: 0 <= i < |rev| && f(rev[i]) == Err(e) && (forall j :: 0 <= j < i ==> f(rev[j]).Ok?)
    ensures exists k :: 0 <= k < |s| && f(s[k]) == Err(e) && (forall j :: k < j < |s| ==> f(s[j]).Ok?)
  {
    var n := |s|;
    var i :| 0 <= i < n && f(rev[i]) == Err(e) && forall j :: 0 <= j < i ==> f(rev[j]).Ok?;
    var k := n - 1 - i;
    assert f(s[k]) == Err(e);
    forall j | k < j < n
      ensures f(s[j]).Ok?
    {
      assert s[j] == rev[n - 1 - j];
    }
  }

  /** What the history template is given. */
  datatype HistoryPage = HistoryPage(channelId: Int64, messages: seq<Item>, page: Int64, maxPage: nat)

  /** The LRANGE window `[(page-1)*N, page*N-1]` of the channel's log,
      clamped to its end; the stop index `page*N-1` is written as
      `start + N - 1`, the same number. */
  function PageEntries(kv: Store, ch: Int64, page: Int64): (r: seq<string>)
    requires page >= 1
    ensures var start := (page - 1) * 20;
      && |r| == Max(0, Min(20, LLen(kv, KeyMessages(ch)) - start))
      && forall k :: 0 <= k < |r| ==> r[k] == Log(kv, ch)[start + k]
  {
    var start := (page - 1) * 20;
    LRange(kv, KeyMessages(ch), start, start + 20 - 1)
  }

  /** `getHistory` once the channel id and page number are accepted:
      `maxPage` comes from the log length, a page past it is refused, and
      the page's entries are decoded back to front. */
  function ServePage(db: Db, kv: Store, ch: Int64, page: Int64): (r: Result<HistoryPage>)
    requires page >= 1
    ensures page > MaxPage(LLen(kv, KeyMessages(ch))) ==> r == Err(BadRequest)
    ensures r.Ok? ==> r.value.channelId == ch && r.value.page == page
    ensures r.Ok? ==> r.value.maxPage == MaxPage(LLen(kv, KeyMessages(ch))) && page <= r.value.maxPage
    ensures r.Err? ==> r.error in {BadRequest, MalformedEntry, UnknownUser}
    ensures page <= MaxPage(LLen(kv, KeyMessages(ch))) ==>
      && (r.Ok? <==> DecodePage(db, PageEntries(kv, ch, page)).Ok?)
      && (r.Ok? ==> r.value.messages == DecodePage(db, PageEntries(kv, ch, page)).value)
      && (r.Err? ==> r.error == DecodePage(db, PageEntries(kv, ch, page)).error)
  {
    var maxPage := MaxPage(LLen(kv, KeyMessages(ch)));
    if page > maxPage then Err(BadRequest)
    else
      match DecodePage(db, PageEntries(kv, ch, page))
      case Err(e) => Err(e)
      case Ok(items) => Ok(HistoryPage(ch, items, page, maxPage))
  }

  /** `getHistory` for a logged-in user: the channel id must be a
      positive int64 and the page parameter acceptable, or the request is
      a bad one. */
  function GetHistory(db: Db, kv: Store, chText: string, pageText: string): (r: Result<HistoryPage>)
    ensures ParseInt(chText).None? || ParseInt(chText).value <= 0 ==> r == Err(BadRequest)
    ensures PageNumber(pageText).Err? ==> r == Err(BadRequest)
    ensures ParseInt(chText).Some? && ParseInt(chText).value > 0 && PageNumber(pageText).Ok? ==>
      r == ServePage(db, kv, ParseInt(chText).value, PageNumber(pageText).value)
  {
    match ParseInt(chText)
    case None => Err(BadRequest)
    case Some(ch) =>
      if ch <= 0 then Err(BadRequest)
      else
        match PageNumber(pageText)
        case Err(e) => Err(e)
        case Ok(page) => ServePage(db, kv, ch, page)
  }

  /** `items` are the entries `log[start..start + |items|]` decoded back
      to front. */
  predicate ShowsWindow(db: Db, log: seq<string>, start: nat, items: seq<Item>) {
    && start + |items| <= |log|
    && forall k :: 0 <= k < |items| ==> DecodeEntry(db, log[start + |items| - 1 - k]) == Ok(items[k])
  }

  /** Decoding a window of a log: the page's items are the window's
      entries decoded back to front. */
  lemma {:induction false} DecodedWindow(db: Db, entries: seq<string>, log: seq<string>, start: nat, items: seq<Item>)
    requires |items| == |entries|
    requires forall k :: 0 <= k < |entries| ==> DecodeEntry(db, entries[|entries| - 1 - k]) == Ok(items[k])
    requires start + |entries| <= |log|
    requires forall j :: 0 <= j < |entries| ==> entries[j] == log[start + j]
    ensures ShowsWindow(db, log, start, items)
  {
    WindowReversed(Decoder(db), entries, log, start, items);
  }

  /** The index shuffle behind it, for any decoder. */
  lemma {:induction false} WindowReversed<B>(f: string -> Result<B>, entries: seq<string>, log: seq<string>,
                                             start: nat, items: seq<B>)
    requires |items| == |entries|
    requires forall k :: 0 <= k < |entries| ==> f(entries[|entries| - 1 - k]) == Ok(items[k])
    requires start + |entries| <= |log|
    requires forall j :: 0 <= j < |entries| ==> entries[j] == log[start + j]
    ensures forall k :: 0 <= k < |items| ==> f(log[start + |items| - 1 - k]) == Ok(items[k])
  {
    forall k | 0 <= k < |items|
      ensures f(log[start + |items| - 1 - k]) == Ok(items[k])
    {
      var j := |entries| - 1 - k;
      assert entries[j] == log[start + j];
    }
  }

  /** A decoded page holds one item per entry, the last entry first. */
  lemma {:induction false} PageItems(db: Db, entries: seq<string>, items: seq<Item>)
    requires DecodePage(db, entries) == Ok(items)
    ensures |items| == |entries|
    ensures forall k :: 0 <= k < |entries| ==> DecodeEntry(db, entries[|entries| - 1 - k]) == Ok(items[k])
  {
  }

  /** What an accepted page was made of. */
  lemma {:induction false} ServedPage(db: Db, kv: Store, ch: Int64, page: Int64, h: HistoryPage)
    requires page >= 1 && ServePage(db, kv, ch, page) == Ok(h)
    ensures page <= MaxPage(LLen(kv, KeyMessages(ch)))
    ensures DecodePage(db, PageEntries(kv, ch, page)) == Ok(h.messages)
  {
  }

  /** A page within `1..maxPage` starts inside the log. */
  lemma {:induction false} PageStart(cnt: nat, page: int)
    requires 1 <= page <= MaxPage(cnt)
    ensures (page - 1) * 20 <= cnt
  {
    var r := MaxPage(cnt);
    if r > 1 {
      assert (page - 1) * 20 <= (r - 1) * 20;
    }
  }

  /** An accepted page holds `min(N, cnt - (page-1)*N)` entries: the log
      entries from index `(page-1)*N` on, in reverse, so oldest first. */
  lemma {:induction false} PageWindow(db: Db, kv: Store, ch: Int64, page: Int64, h: HistoryPage)
    requires page >= 1 && ServePage(db, kv, ch, page) == Ok(h)
    ensures |h.messages| == Min(20, |Log(kv, ch)| - (page - 1) * 20)
    ensures ShowsWindow(db, Log(kv, ch), (page - 1) * 20, h.messages)
  {
    ServedPage(db, kv, ch, page, h);
    var start := (page - 1) * 20;
    var entries := PageEntries(kv, ch, page);
    PageSlice(kv, ch, page, start);
    DecodedSlice(db, entries, Log(kv, ch), start, h.messages);
  }

  /** The entries of a page within `1..maxPage`: at most N of them, read
      from the log from `start` on. */
  lemma {:induction false} PageSlice(kv: Store, ch: Int64, page: Int64, start: int)
    requires 1 <= page <= MaxPage(LLen(kv, KeyMessages(ch))) && start == (page - 1) * 20
    ensures 0 <= start && start + |PageEntries(kv, ch, page)| <= |Log(kv, ch)|
    ensures |PageEntries(kv, ch, page)| == Min(20, |Log(kv, ch)| - start)
    ensures forall j :: 0 <= j < |PageEntries(kv, ch, page)| ==> PageEntries(kv, ch, page)[j] == Log(kv, ch)[start + j]
  {
    PageStart(LLen(kv, KeyMessages(ch)), page);
  }

  /** A decoded window of at most N entries from `start` on. */
  lemma {:induction false} DecodedSlice(db: Db, entries: seq<string>, log: seq<string>, start: nat, items: seq<Item>)
    requires DecodePage(db, entries) == Ok(items)
    requires start + |entries| <= |log| && |entries| == Min(20, |log| - start)
    requires forall j :: 0 <= j < |entries| ==> entries[j] == log[start + j]
    ensures |items| == Min(20, |log| - start)
    ensures ShowsWindow(db, log, start, items)
  {
    PageItems(db, entries, items);
    DecodedWindow(db, entries, log, start, items);
  }

  /** The example of a 45-entry log: three pages, the fourth refused, the
      third holding the five oldest entries. */
  lemma {:induction false} FortyFiveEntries(db: Db, kv: Store, ch: Int64)
    requires ch > 0 && LLen(kv, KeyMessages(ch)) == 45
    ensures MaxPage(45) == 3
    ensures GetHistory(db, kv, FormatInt(ch), FormatInt(4)) == Err(BadRequest)
    ensures GetHistory(db, kv, FormatInt(ch), FormatInt(3)).Ok? ==>
      |GetHistory(db, kv, FormatInt(ch), FormatInt(3)).value.messages| == 5
  {
    ParseFormat(ch);
    ParseFormat(4);
    ParseFormat(3);
    var r := ServePage(db, kv, ch, 3);
    if r.Ok? {
      PageWindow(db, kv, ch, 3, r.value);
    }
  }

  /** `item` shows the id, author and text of row `m`. */
  predicate Shows(db: Db, item: Item, m: Message) {
    item.id == m.id && m.userId in db.users && item.user == db.users[m.userId] && item.content == m.content
  }

  /** A decoded entry of a row shows that row's id, author and text. */
  lemma {:induction false} DecodedRow(db: Db, e: string, m: Message, item: Item)
    requires EntryOf(e, m) && DecodeEntry(db, e) == Ok(item)
    ensures Shows(db, item, m)
  {
  }

  /** Entry `i` of a mirroring log, decoded, shows row `n - 1 - i`. */
  lemma {:induction false} DecodedAt(db: Db, log: seq<string>, rows: seq<Message>, i: nat, item: Item)
    requires LogMirrors(log, rows)
    requires i < |log| && DecodeEntry(db, log[i]) == Ok(item)
    ensures |rows| == |log| && Shows(db, item, rows[|rows| - 1 - i])
  {
    MirrorsAt(log, rows, i);
    DecodedRow(db, log[i], rows[|rows| - 1 - i], item);
  }

  /** Item `k` of a decoded window of a mirroring log shows row
      `n - start - |items| + k`. */
  lemma {:induction false} WindowItem(db: Db, log: seq<string>, rows: seq<Message>, start: nat, items: seq<Item>, k: nat)
    requires LogMirrors(log, rows) && ShowsWindow(db, log, start, items) && k < |items|
    ensures |rows| == |log| && start + |items| <= |rows|
    ensures Shows(db, items[k], rows[|rows| - start - |items| + k])
  {
    var i := start + |items| - 1 - k;
    assert DecodeEntry(db, log[i]) == Ok(items[k]);
    DecodedAt(db, log, rows, i, items[k]);
    assert |rows| - 1 - i == |rows| - start - |items| + k;
  }

  /** The position, oldest first, of the row the first item of page
      `page` shows, in a channel of `n` rows. */
  function FirstRow(n: nat, page: int): int {
    Max(0, n - page * 20)
  }

  /** Item `k` of page `page` of a mirroring log shows row
      `max(0, n - page*N) + k`. */
  lemma {:induction false} PageRow(db: Db, log: seq<string>, rows: seq<Message>, page: nat, items: seq<Item>, k: nat)
    requires page >= 1 && LogMirrors(log, rows)
    requires |items| == Min(20, |log| - (page - 1) * 20)
    requires ShowsWindow(db, log, (page - 1) * 20, items) && k < |items|
    ensures FirstRow(|rows|, page) + |items| <= |rows|
    ensures Shows(db, items[k], rows[FirstRow(|rows|, page) + k])
  {
    WindowItem(db, log, rows, (page - 1) * 20, items, k);
    assert |rows| - (page - 1) * 20 - |items| == FirstRow(|rows|, page);
  }

  /** The items of page `page` show, oldest first, the rows from
      `max(0, n - page*N)` on. */
  predicate PageShows(db: Db, rows: seq<Message>, page: int, items: seq<Item>) {
    && FirstRow(|rows|, page) + |items| <= |rows|
    && forall k :: 0 <= k < |items| ==> Shows(db, items[k], rows[FirstRow(|rows|, page) + k])
  }

  /** Every item of page `page` of a mirroring log shows its row. */
  lemma {:induction false} PageRows(db: Db, log: seq<string>, rows: seq<Message>, page: nat, items: seq<Item>)
    requires page >= 1 && LogMirrors(log, rows)
    requires |items| == Min(20, |log| - (page - 1) * 20)
    requires ShowsWindow(db, log, (page - 1) * 20, items)
    ensures PageShows(db, rows, page, items)
  {
    if |items| > 0 {
      PageRow(db, log, rows, page, items, 0);
    }
    forall k | 0 <= k < |items| {
      PageRow(db, log, rows, page, items, k);
    }
  }

  /** The entries of a window of a mirroring log all decode as entries. */
  lemma {:induction false} WindowSplits(log: seq<string>, rows: seq<Message>, entries: seq<string>, start: nat)
    requires LogMirrors(log, rows) && start + |entries| <= |log|
    requires forall j :: 0 <= j < |entries| ==> entries[j] == log[start + j]
    ensures forall j :: 0 <= j < |entries| ==> Split(entries[j]).Ok?
  {
    forall j | 0 <= j < |entries|
      ensures Split(entries[j]).Ok?
    {
      MirrorsAt(log, rows, start + j);
    }
  }

  /** With every author present, the entries of a window of a mirroring
      log all decode to items. */
  lemma {:induction false} WindowDecodes(db: Db, log: seq<string>, rows: seq<Message>, entries: seq<string>, start: nat)
    requires LogMirrors(log, rows) && Authored(db, rows) && start + |entries| <= |log|
    requires forall j :: 0 <= j < |entries| ==> entries[j] == log[start + j]
    ensures forall j :: 0 <= j < |entries| ==> DecodeEntry(db, entries[j]).Ok?
  {
    forall j | 0 <= j < |entries|
      ensures DecodeEntry(db, entries[j]).Ok?
    {
      var i := start + j;
      MirrorsAt(log, rows, i);
      assert rows[|rows| - 1 - i].userId in db.users;
    }
  }

  /** Entries that all split never make a page fail as malformed. */
  lemma {:induction false} PageNotMalformed(db: Db, entries: seq<string>)
    requires forall j :: 0 <= j < |entries| ==> Split(entries[j]).Ok?
    ensures DecodePage(db, entries) != Err(MalformedEntry)
  {
    DecodePageResult(db, entries);
  }

  /** A page of a mirroring log is never a decoding failure. */
  lemma {:induction false} PageNeverMalformedMirror(db: Db, kv: Store, ch: Int64, page: Int64)
    requires LogMirrors(Log(kv, ch), ChannelRows(db.messages, ch)) && page >= 1
    ensures ServePage(db, kv, ch, page) != Err(MalformedEntry)
  {
    var entries := PageEntries(kv, ch, page);
    if page <= MaxPage(LLen(kv, KeyMessages(ch))) {
      var start := (page - 1) * 20;
      PageSlice(kv, ch, page, start);
      WindowNotMalformed(db, Log(kv, ch), ChannelRows(db.messages, ch), entries, start);
    }
    ServedNotMalformed(db, kv, ch, page, entries);
  }

  /** A window of a mirroring log decodes without a decoding failure. */
  lemma {:induction false} WindowNotMalformed(db: Db, log: seq<string>, rows: seq<Message>, entries: seq<string>, start: nat)
    requires LogMirrors(log, rows) && start + |entries| <= |log|
    requires forall j :: 0 <= j < |entries| ==> entries[j] == log[start + j]
    ensures DecodePage(db, entries) != Err(MalformedEntry)
  {
    WindowSplits(log, rows, entries, start);
    PageNotMalformed(db, entries);
  }

  /** A page is served without a decoding failure when its window decodes
      without one. */
  lemma {:induction false} ServedNotMalformed(db: Db, kv: Store, ch: Int64, page: Int64, entries: seq<string>)
    requires page >= 1 && entries == PageEntries(kv, ch, page)
    requires page <= MaxPage(LLen(kv, KeyMessages(ch))) ==> DecodePage(db, entries) != Err(MalformedEntry)
    ensures ServePage(db, kv, ch, page) != Err(MalformedEntry)
  {
  }

  /** On a consistent store a history page is never a decoding failure. */
  lemma {:induction false} PageNeverMalformed(db: Db, kv: Store, ch: Int64, page: Int64)
    requires Consistent(db, kv) && page >= 1
    ensures ServePage(db, kv, ch, page) != Err(MalformedEntry)
  {
    MirroredLog(db, kv, ch);
    PageNeverMalformedMirror(db, kv, ch, page);
  }

  /** An accepted page of a mirroring log shows its block of rows. */
  lemma {:induction false} PageOfMirror(db: Db, kv: Store, ch: Int64, page: Int64, h: HistoryPage)
    requires LogMirrors(Log(kv, ch), ChannelRows(db.messages, ch)) && page >= 1
    requires ServePage(db, kv, ch, page) == Ok(h)
    ensures PageShows(db, ChannelRows(db.messages, ch), page, h.messages)
  {
    PageWindow(db, kv, ch, page, h);
    PageRows(db, Log(kv, ch), ChannelRows(db.messages, ch), page, h.messages);
  }

  /** On a consistent store an accepted page shows, oldest first, the
      rows of its block of twenty: the ids, authors and texts of rows
      `max(0, n - page*N) ..` of the channel. */
  lemma {:induction false} PageOfConsistent(db: Db, kv: Store, ch: Int64, page: Int64, h: HistoryPage)
    requires Consistent(db, kv) && page >= 1
    requires ServePage(db, kv, ch, page) == Ok(h)
    ensures PageShows(db, ChannelRows(db.messages, ch), page, h.messages)
  {
    MirroredLog(db, kv, ch);
    PageOfMirror(db, kv, ch, page, h);
  }

  /** Every page within `1..maxPage` of a mirroring log whose authors all
      exist is served. */
  lemma {:induction false} PageServedMirror(db: Db, kv: Store, ch: Int64, page: Int64)
    requires LogMirrors(Log(kv, ch), ChannelRows(db.messages, ch))
    requires Authored(db, ChannelRows(db.messages, ch))
    requires 1 <= page <= MaxPage(LLen(kv, KeyMessages(ch)))
    ensures ServePage(db, kv, ch, page).Ok?
  {
    var start := (page - 1) * 20;
    var entries := PageEntries(kv, ch, page);
    PageSlice(kv, ch, page, start);
    WindowServed(db, Log(kv, ch), ChannelRows(db.messages, ch), entries, start);
    ServedOk(db, kv, ch, page, entries);
  }

  /** A window of a mirroring log whose authors all exist decodes. */
  lemma {:induction false} WindowServed(db: Db, log: seq<string>, rows: seq<Message>, entries: seq<string>, start: nat)
    requires LogMirrors(log, rows) && Authored(db, rows) && start + |entries| <= |log|
    requires forall j :: 0 <= j < |entries| ==> entries[j] == log[start + j]
    ensures DecodePage(db, entries).Ok?
  {
    WindowDecodes(db, log, rows, entries, start);
    DecodePageResult(db, entries);
  }

  /** A page within `1..maxPage` whose window decodes is served. */
  lemma {:induction false} ServedOk(db: Db, kv: Store, ch: Int64, page: Int64, entries: seq<string>)
    requires 1 <= page <= MaxPage(LLen(kv, KeyMessages(ch))) && entries == PageEntries(kv, ch, page)
    requires DecodePage(db, entries).Ok?
    ensures ServePage(db, kv, ch, page).Ok?
  {
  }

  /** On a consistent store where every author of the channel exists,
      every page within `1..maxPage` is served. */
  lemma {:induction false} PageServed(db: Db, kv: Store, ch: Int64, page: Int64)
    requires Consistent(db, kv)
    requires Authored(db, ChannelRows(db.messages, ch))
    requires 1 <= page <= MaxPage(LLen(kv, KeyMessages(ch)))
    ensures ServePage(db, kv, ch, page).Ok?
  {
    MirroredLog(db, kv, ch);
    PageServedMirror(db, kv, ch, page);
  }
}

=== FILE: messagelog.dfy ===
/** The hybrid message log as a whole: the durable `message` table, the
    per-channel Redis logs that mirror it, and the per-user read cursors,
    with the invariants that the handlers keep between them. */
module MessageLog {
  import opened Base
  import opened Decimal
  import opened Seqs
  import opened Codec
  import opened Redis
  import opened Sql

  /** The Redis log of channel `ch` (`keyMessages(ch)`), newest first. */
  function Log(kv: Store, ch: Int64): seq<string> {
    List(kv, KeyMessages(ch))
  }

  /** The log entry of a stored message, stamped with its `created_at`. */
  function Encode(m: Message): string {
    Unify(m.id, m.userId, m.content, m.createdAt)
  }

  function Entries(ms: seq<Message>): seq<string> {
    Map(ms, Encode)
  }

  /** A decoded entry carries the id, author and text of a message row
      (the timestamps may differ: the write path stamps entries with the
      process clock, the row with the database's). */
  predicate Agrees(e: LogEntry, m: Message) {
    e.id == m.id && e.userId == m.userId && e.content == m.content
  }

  /** `entry` decodes to the id, author and text of `m`. */
  predicate EntryOf(entry: string, m: Message) {
    Split(entry).Ok? && Agrees(Split(entry).value, m)
  }

  /** A channel's log holds, newest first, one decodable entry per row. */
  ghost predicate LogMirrors(log: seq<string>, rows: seq<Message>) {
    Pairwise(log, Reverse(rows), EntryOf)
  }

  /** Every channel's log mirrors that channel's rows. */
  ghost predicate Mirrored(db: Db, kv: Store) {
    forall c: Int64 :: LogMirrors(Log(kv, c), ChannelRows(db.messages, c))
  }

  /** The log of one channel mirrors that channel's rows. */
  lemma {:induction false} MirroredLog(db: Db, kv: Store, ch: Int64)
    requires Mirrored(db, kv)
    ensures LogMirrors(Log(kv, ch), ChannelRows(db.messages, ch))
  {
  }

  /** Entry `i` of a mirroring log, counted from the newest, is the entry
      of row `n - 1 - i`. */
  lemma {:induction false} MirrorsAt(log: seq<string>, rows: seq<Message>, i: nat)
    requires LogMirrors(log, rows) && i < |log|
    ensures |rows| == |log| && EntryOf(log[i], rows[|rows| - 1 - i])
  {
    assert Reverse(rows)[i] == rows[|rows| - 1 - i];
  }

  /** The stored cursor of `user` in `ch`: absent reads as 0, and text
      that is not an int64 is a corrupt cursor (`queryHaveRead`). */
  function Cursor(kv: Store, user: Int64, ch: Int64): (r: Result<Int64>)
    ensures Get(kv, KeyHaveread(user, ch)).None? ==> r == Ok(0)
    ensures Get(kv, KeyHaveread(user, ch)).Some? ==>
      (r.Ok? <==> ParseInt(Get(kv, KeyHaveread(user, ch)).value).Some?)
    ensures Get(kv, KeyHaveread(user, ch)).Some? && r.Ok? ==>
      ParseInt(Get(kv, KeyHaveread(user, ch)).value) == Some(r.value)
    ensures r.Err? ==> r.error == CorruptCursor
  {
    match Get(kv, KeyHaveread(user, ch))
    case None => Ok(0)
    case Some(text) =>
      match ParseInt(text)
      case None => Err(CorruptCursor)
      case Some(v) => Ok(v)
  }

  /** A cursor written with SET reads back as the value written, and the
      other cursors are untouched. */
  lemma {:induction false} CursorSetGet(kv: Store, user: Int64, ch: Int64, v: Int64, u: Int64, c: Int64)
    ensures Cursor(Set(kv, KeyHaveread(user, ch), FormatInt(v)), u, c) ==
      if u == user && c == ch then Ok(v) else Cursor(kv, u, c)
  {
    ParseFormat(v);
    KeyHavereadInjective(u, c, user, ch);
  }

  /** Every stored cursor is a count of log entries its user has seen. */
  ghost predicate CursorsBounded(kv: Store) {
    forall u: Int64, c: Int64 ::
      Cursor(kv, u, c).Ok? && 0 <= Cursor(kv, u, c).value <= LLen(kv, KeyMessages(c))
  }

  ghost predicate Consistent(db: Db, kv: Store) {
    Valid(db) && Mirrored(db, kv) && CursorsBounded(kv)
  }

  /** In id order, the i-th row's id is at least i + 1. */
  lemma {:induction false} IdsAtLeastPosition(ms: seq<Message>, i: nat)
    requires IdsAscending(ms)
    requires forall k :: 0 <= k < |ms| ==> 1 <= ms[k].id
    requires i < |ms|
    ensures ms[i].id >= i + 1
  {
    if i > 0 {
      IdsAtLeastPosition(ms, i - 1);
    }
  }

  /** A valid table has fewer rows than its counter, so every log length
      and cursor fits an int64. */
  lemma {:induction false} RowCountBound(db: Db, ch: Int64)
    requires Valid(db)
    ensures |ChannelRows(db.messages, ch)| <= |db.messages| <= MaxInt64
  {
    if |db.messages| > 0 {
      IdsAtLeastPosition(db.messages, |db.messages| - 1);
    }
  }

  /** In a consistent pair each log holds one entry per row of its
      channel, so its length fits an int64. */
  lemma {:induction false} LogLength(db: Db, kv: Store, ch: Int64)
    requires Consistent(db, kv)
    ensures LLen(kv, KeyMessages(ch)) == |ChannelRows(db.messages, ch)| <= MaxInt64
  {
    assert LogMirrors(Log(kv, ch), ChannelRows(db.messages, ch));
    RowCountBound(db, ch);
  }
}

=== FILE: readpath.dfy ===
/** The readers of the message log: `queryResponse` and `getMessage`
    (new messages of a channel, moving the read cursor) and
    `queryHaveRead` with `fetchUnread` (unread counts per channel). */
module ReadPath {
  import opened Base
  import opened Decimal
  import opened Seqs
  import opened TimeFormat
  import opened Codec
  import opened Redis
  import opened Sql
  import opened MessageLog

  /** One message as the handlers hand it to the renderer: id, the
      author's public columns, the date text and the content. */
  datatype Item = Item(id: Int64, user: Profile, date: string, content: string)

  /** Every row has an author in the `user` table. */
  predicate Authored(db: Db, ms: seq<Message>) {
    forall k :: 0 <= k < |ms| ==> ms[k].userId in db.users
  }

  /** A joined row as `queryResponse` renders it. */
  function RowItem(db: Db, m: Message): Item
    requires m.userId in db.users
  {
    Item(m.id, db.users[m.userId], Format(m.createdAt), m.content)
  }

  /** `RowItem` for the rows of `db` as a function value. */
  function Renderer(db: Db): Message --> Item {
    (m: Message) requires m.userId in db.users => RowItem(db, m)
  }

  /** The rows rendered one by one, in order. */
  function RowItems(db: Db, ms: seq<Message>): (r: seq<Item>)
    requires Authored(db, ms)
    ensures |r| == |ms|
    ensures forall k :: 0 <= k < |ms| ==> r[k] == RowItem(db, ms[k])
  {
    Map(ms, Renderer(db))
  }

  /** What a poll for new messages should show: of the rows newer than
      `lastId` in channel `ch` whose author exists, the newest hundred, in
      table (oldest first) order. */
  function Newest(db: Db, ch: Int64, lastId: Int64): (r: seq<Message>)
    requires Valid(db)
    ensures |r| == Min(100, |Matching(db, ch, lastId)|)
    ensures Authored(db, r)
    ensures IdsAscending(r)
    ensures forall k :: 0 <= k < |r| ==> r[k].id > lastId && r[k].channelId == ch
    ensures forall k :: 0 <= k < |r| ==> r[k] in Matching(db, ch, lastId)
    ensures forall m :: m in Matching(db, ch, lastId) && m !in r ==> forall k :: 0 <= k < |r| ==> m.id < r[k].id
  {
    var p := (m: Message) => m.id > lastId && m.channelId == ch && m.userId in db.users;
    var ms := Filter(db.messages, p);
    FilterAscending(db.messages, p);
    FilterMembers(db.messages, p);
    SuffixHighest(ms, Min(100, |ms|));
    ms[|ms| - Min(100, |ms|)..]
  }

  /** The query's newest-first rows, reversed, are the newest rows in
      table order. */
  lemma {:induction false} NewestReversesSelect(db: Db, ch: Int64, lastId: Int64)
    requires Valid(db)
    ensures Reverse(SelectAfter(db, ch, lastId)) == Newest(db, ch, lastId)
  {
    var ms := Matching(db, ch, lastId);
    ReversedNewest(ms, SelectAfter(db, ch, lastId), Newest(db, ch, lastId));
  }

  lemma {:induction false} ReversedNewest(ms: seq<Message>, select: seq<Message>, newest: seq<Message>)
    requires select == Take(Reverse(ms), 100)
    requires newest == ms[|ms| - Min(100, |ms|)..]
    ensures Reverse(select) == newest
  {
    ReverseTakeReverse(ms, 100);
  }

  /** The swap loop of `queryResponse`: slot i and slot l-1-i trade
      places for every i below l/2, which reverses the array in place. */
  method SwapReverse<T>(s: seq<T>) returns (r: seq<T>)
    ensures r == Reverse(s)
  {
    var a := new T[|s|](k requires 0 <= k < |s| => s[k]);
    var l := a.Length;
    var i := 0;
    while i < l / 2
      invariant 0 <= i <= l / 2
      invariant forall k :: 0 <= k < i ==> a[k] == s[l - 1 - k] && a[l - 1 - k] == s[k]
      invariant forall k :: i <= k < l - i ==> a[k] == s[k]
    {
      a[i], a[l - i - 1] := a[l - i - 1], a[i];
      i := i + 1;
    }
    r := a[..];
  }

  /** Rendering the query's rows and reversing them gives the newest
      rows, rendered, in table order. */
  lemma {:induction false} RenderedReverse(db: Db, ch: Int64, lastId: Int64)
    requires Valid(db)
    ensures Reverse(Map(SelectAfter(db, ch, lastId), Renderer(db))) == RowItems(db, Newest(db, ch, lastId))
  {
    MapReverse(SelectAfter(db, ch, lastId), Renderer(db));
    NewestReversesSelect(db, ch, lastId);
  }

  /** The rendered newest rows: at most a hundred, ids ascending and all
      above `lastId`. */
  lemma {:induction false} NewestItems(db: Db, ch: Int64, lastId: Int64)
    requires Valid(db)
    ensures var items := RowItems(db, Newest(db, ch, lastId));
      && |items| <= 100
      && (forall i, j :: 0 <= i < j < |items| ==> items[i].id < items[j].id)
      && (forall k :: 0 <= k < |items| ==> items[k].id > lastId)
  {
    var newest := Newest(db, ch, lastId);
    var items := RowItems(db, newest);
    forall i, j | 0 <= i < j < |items|
      ensures items[i].id < items[j].id
    {
      assert items[i].id == newest[i].id && items[j].id == newest[j].id;
    }
  }

  /** `queryResponse`: the query's rows (newest first), rendered and then
      reversed in place; and the channel's log length read with LLEN. */
  method QueryResponse(db: Db, kv: Store, ch: Int64, lastId: Int64) returns (response: seq<Item>, read: nat)
    requires Valid(db)
    ensures response == RowItems(db, Newest(db, ch, lastId))
    ensures read == LLen(kv, KeyMessages(ch))
    ensures |response| <= 100
    ensures forall i, j :: 0 <= i < j < |response| ==> response[i].id < response[j].id
    ensures forall k :: 0 <= k < |response| ==> response[k].id > lastId
  {
    var rows := SelectAfter(db, ch, lastId);
    var rendered := Map(rows, Renderer(db));
    read := LLen(kv, KeyMessages(ch));
    response := SwapReverse(rendered);
    RenderedReverse(db, ch, lastId);
    NewestItems(db, ch, lastId);
  }

  /** The cursor write of `getMessage`: a non-empty answer sets the user's
      cursor in the channel to the log length read; an empty one leaves
      the store alone. */
  function MarkRead(kv: Store, user: Int64, ch: Int64, served: nat, read: Int64): (r: Store)
    ensures served == 0 ==> r == kv
    ensures served > 0 ==> Cursor(r, user, ch) == Ok(read)
    ensures forall u: Int64, c: Int64 :: u != user || c != ch ==> Cursor(r, u, c) == Cursor(kv, u, c)
    ensures r.lists == kv.lists
  {
    if served == 0 then kv
    else
      var r := Set(kv, KeyHaveread(user, ch), FormatInt(read));
      forall u: Int64, c: Int64
        ensures Cursor(r, u, c) == if u == user && c == ch then Ok(read) else Cursor(kv, u, c)
      {
        CursorSetGet(kv, user, ch, read, u, c);
      }
      r
  }

  /** A cursor moved to the current log length keeps the pair consistent
      and never moves backwards. */
  lemma {:induction false} MarkReadConsistent(db: Db, kv: Store, user: Int64, ch: Int64, served: nat)
    requires Consistent(db, kv)
    ensures LLen(kv, KeyMessages(ch)) <= MaxInt64
    ensures var kv' := MarkRead(kv, user, ch, served, LLen(kv, KeyMessages(ch)));
      && Consistent(db, kv')
      && Cursor(kv, user, ch).value <= Cursor(kv', user, ch).value
  {
    LogLength(db, kv, ch);
    var kv' := MarkRead(kv, user, ch, served, LLen(kv, KeyMessages(ch)));
    assert forall c: Int64 :: Log(kv', c) == Log(kv, c);
    assert Mirrored(db, kv');
  }

  /** `getMessage`: a request without a session user is forbidden, query
      parameters that are not int64 decimals fail, and otherwise the
      answer is the new messages, with the cursor moved only when there
      are any. */
  method GetMessage(db: Db, kv: Store, userId: Int64, chanText: string, lastText: string)
    returns (r: Result<(seq<Item>, Store)>)
    requires Valid(db)
    ensures userId == 0 ==> r == Err(Forbidden)
    ensures userId != 0 && (ParseInt(chanText).None? || ParseInt(lastText).None?) ==> r == Err(InvalidParameter)
    ensures userId != 0 && ParseInt(chanText).Some? && ParseInt(lastText).Some? ==> r.Ok?
    ensures r.Ok? ==>
      && userId != 0 && ParseInt(chanText).Some? && ParseInt(lastText).Some?
      && var ch := ParseInt(chanText).value;
      && r.value.0 == RowItems(db, Newest(db, ch, ParseInt(lastText).value))
      && (r.value.0 == [] ==> r.value.1 == kv)
      && (r.value.0 != [] && LLen(kv, KeyMessages(ch)) <= MaxInt64 ==>
            r.value.1 == MarkRead(kv, userId, ch, |r.value.0|, LLen(kv, KeyMessages(ch))))
    ensures r.Ok? && Consistent(db, kv) ==>
      && Consistent(db, r.value.1)
      && Cursor(kv, userId, ParseInt(chanText).value).value <= Cursor(r.value.1, userId, ParseInt(chanText).value).value
  {
    if userId == 0 {
      return Err(Forbidden);
    }
    var chanId := ParseInt(chanText);
    if chanId.None? {
      return Err(InvalidParameter);
    }
    var lastId := ParseInt(lastText);
    if lastId.None? {
      return Err(InvalidParameter);
    }
    var ch := chanId.value;
    var response, read := QueryResponse(db, kv, ch, lastId.value);
    var kv' := kv;
    if |response| > 0 {
      // go-redis writes the int64 in decimal; the cursor written for a
      // length past int64 is not pinned by the contract (see "Left out")
      kv' := Set(kv, KeyHaveread(userId, ch), FormatInt(read));
    }
    if Consistent(db, kv) {
      MarkReadConsistent(db, kv, userId, ch, |response|);
    }
    return Ok((response, kv'));
  }

  /** One entry of the `fetchUnread` answer. */
  datatype Unread = Unread(channelId: Int64, unread: Int64)

  /** One channel's count in `fetchUnread`: the log length minus the
      cursor, in int64 arithmetic and not clamped at 0. */
  function UnreadOf(kv: Store, user: Int64, ch: Int64): (r: Result<Unread>)
    ensures r.Ok? <==> Cursor(kv, user, ch).Ok?
    ensures r.Err? ==> r.error == CorruptCursor
    ensures r.Ok? ==> r.value.channelId == ch
    ensures r.Ok? && MinInt64 <= LLen(kv, KeyMessages(ch)) - Cursor(kv, user, ch).value <= MaxInt64 ==>
      r.value.unread == LLen(kv, KeyMessages(ch)) - Cursor(kv, user, ch).value
  {
    match Cursor(kv, user, ch)
    case Err(e) => Err(e)
    case Ok(read) => Ok(Unread(ch, Wrap64(LLen(kv, KeyMessages(ch)) - read)))
  }

  /** A cursor past the end of the log is not clamped: the count comes
      out negative, by exactly the overshoot. */
  lemma {:induction false} UnreadNotClamped(kv: Store, user: Int64, ch: Int64)
    requires Cursor(kv, user, ch).Ok? && Cursor(kv, user, ch).value > LLen(kv, KeyMessages(ch))
    ensures UnreadOf(kv, user, ch).Ok?
    ensures UnreadOf(kv, user, ch).value.unread == LLen(kv, KeyMessages(ch)) - Cursor(kv, user, ch).value < 0
  {
  }

  /** The per-channel loop of `fetchUnread`, in `channel` table order; the
      first corrupt cursor fails the whole request. */
  function UnreadCounts(kv: Store, user: Int64, channels: seq<Int64>): (r: Result<seq<Unread>>)
    ensures r.Ok? <==> forall k :: 0 <= k < |channels| ==> Cursor(kv, user, channels[k]).Ok?
    ensures r.Err? ==> r.error == CorruptCursor
    ensures r.Ok? ==> |r.value| == |channels|
    ensures r.Ok? ==> forall k :: 0 <= k < |channels| ==> UnreadOf(kv, user, channels[k]) == Ok(r.value[k])
  {
    Collect(channels, c => UnreadOf(kv, user, c))
  }

  /** `fetchUnread`: forbidden without a session user, else one count per
      row of the `channel` table. */
  function FetchUnread(db: Db, kv: Store, userId: Int64): (r: Result<seq<Unread>>)
    ensures userId == 0 ==> r == Err(Forbidden)
    ensures userId != 0 ==> r == UnreadCounts(kv, userId, db.channels)
  {
    if userId == 0 then Err(Forbidden) else UnreadCounts(kv, userId, db.channels)
  }

  /** In a consistent pair the unread count never fails and never wraps:
      it is the channel's number of rows minus the cursor, at least 0. */
  lemma {:induction false} UnreadConsistent(db: Db, kv: Store, userId: Int64)
    requires Consistent(db, kv) && userId != 0
    ensures FetchUnread(db, kv, userId).Ok?
    ensures var counts := FetchUnread(db, kv, userId).value;
      forall k :: 0 <= k < |counts| ==>
        && counts[k].channelId == db.channels[k]
        && 0 <= counts[k].unread == |ChannelRows(db.messages, db.channels[k])| - Cursor(kv, userId, db.channels[k]).value
  {
    forall k | 0 <= k < |db.channels|
      ensures |ChannelRows(db.messages, db.channels[k])| == LLen(kv, KeyMessages(db.channels[k])) <= MaxInt64
    {
      LogLength(db, kv, db.channels[k]);
    }
  }

  /** After a poll that returned messages, that channel has nothing
      unread for the user. */
  lemma {:induction false} MarkReadClearsUnread(db: Db, kv: Store, user: Int64, ch: Int64, served: nat, k: nat)
    requires Consistent(db, kv) && user != 0 && served > 0
    requires k < |db.channels| && db.channels[k] == ch
    ensures LLen(kv, KeyMessages(ch)) <= MaxInt64
    ensures var kv' := MarkRead(kv, user, ch, served, LLen(kv, KeyMessages(ch)));
      FetchUnread(db, kv', user).Ok? && FetchUnread(db, kv', user).value[k].unread == 0
  {
    MarkReadConsistent(db, kv, user, ch, served);
    var kv' := MarkRead(kv, user, ch, served, LLen(kv, KeyMessages(ch)));
    UnreadConsistent(db, kv', user);
    assert Log(kv', ch) == Log(kv, ch);
  }
}

=== FILE: redis.dfy ===
/** The Redis commands the message core issues, on one database holding
    list values (the per-channel logs) and string values (the cursors). */
module Redis {
  import opened Base

  datatype Store = Store(lists: map<string, seq<string>>, strings: map<string, string>)

  /** The list stored at `key`; a missing key reads as the empty list. */
  function List(st: Store, key: string): seq<string> {
    if key in st.lists then st.lists[key] else []
  }

  /** LLEN: 0 for a missing key, never an error. */
  function LLen(st: Store, key: string): nat {
    |List(st, key)|
  }

  /** LPUSH key value: the value becomes the head of the list. */
  function LPush(st: Store, key: string, value: string): (r: Store)
    ensures List(r, key) == [value] + List(st, key)
    ensures LLen(r, key) == LLen(st, key) + 1
    ensures forall k :: k != key ==> List(r, k) == List(st, k)
    ensures r.strings == st.strings
  {
    st.(lists := st.lists[key := [value] + List(st, key)])
  }

  /** LRANGE key start stop: an inclusive index window; negative indexes
      count from the end, and the window is clamped to the list. */
  function LRange(st: Store, key: string, start: int, stop: int): (r: seq<string>)
    ensures |r| <= LLen(st, key)
    ensures 0 <= start && 0 <= stop ==> |r| == Max(0, Min(stop + 1, LLen(st, key)) - start)
    ensures 0 <= start && 0 <= stop ==> forall k :: 0 <= k < |r| ==> r[k] == List(st, key)[start + k]
  {
    var l := List(st, key);
    var n := |l|;
    var s := if start < 0 then n + start else start;
    var e := if stop < 0 then n + stop else stop;
    var s := if s < 0 then 0 else s;
    var len := if s > e || s >= n then 0 else Min(e, n - 1) + 1 - s;
    seq(len, k requires 0 <= k < len => l[s + k])
  }

  /** GET key: `None` is go-redis's `redis.Nil` for a missing key. */
  function Get(st: Store, key: string): Option<string> {
    if key in st.strings then Some(st.strings[key]) else None
  }

  /** SET key value (no expiry): overwrites, whatever was there. */
  function Set(st: Store, key: string, value: string): (r: Store)
    ensures Get(r, key) == Some(value)
    ensures forall k :: k != key ==> Get(r, k) == Get(st, k)
    ensures r.lists == st.lists
  {
    st.(strings := st.strings[key := value])
  }

  /** FLUSHDB: every key is gone. */
  function FlushDb(st: Store): (r: Store)
    ensures forall k :: List(r, k) == [] && Get(r, k) == None
  {
    Store(map[], map[])
  }
}

=== FILE: seqs.dfy ===
/** Sequence helpers shared by the stores and the message service. */
module Seqs {

  /** The elements of `s` back to front. */
  function Reverse<T>(s: seq<T>): (r: seq<T>)
    ensures |r| == |s|
    ensures forall k :: 0 <= k < |s| ==> r[k] == s[|s| - 1 - k]
  {
    seq(|s|, k requires 0 <= k < |s| => s[|s| - 1 - k])
  }

  lemma {:induction false} ReverseAppend<T>(a: seq<T>, b: seq<T>)
    ensures Reverse(a + b) == Reverse(b) + Reverse(a)
  {
    assert forall k :: 0 <= k < |a + b| ==> Reverse(a + b)[k] == (Reverse(b) + Reverse(a))[k];
  }

  /** Pushing `x` on top of `log` after `rest` was pushed in order. */
  lemma {:induction false} PushAfterReversed<T>(x: T, rest: seq<T>, log: seq<T>)
    ensures Reverse([x] + rest) + log == Reverse(rest) + ([x] + log)
  {
    ReverseAppend([x], rest);
    assert Reverse([x]) == [x];
  }

  /** The first `n` elements, or all of them when there are fewer. */
  function Take<T>(s: seq<T>, n: nat): (r: seq<T>)
    ensures |r| == if n < |s| then n else |s|
    ensures r == s[..|r|]
  {
    if n < |s| then s[..n] else s
  }

  /** Keeping at most `n` of the elements from the back of a sequence and
      restoring their order yields its last elements. */
  lemma {:induction false} ReverseTakeReverse<T>(s: seq<T>, n: nat)
    ensures var k := if n < |s| then n else |s|;
      Reverse(Take(Reverse(s), n)) == s[|s| - k..]
  {
    var k := if n < |s| then n else |s|;
    var rs := Reverse(s);
    var t := Take(rs, n);
    assert |t| == k && t == rs[..k];
    var r := Reverse(t);
    forall i | 0 <= i < k
      ensures r[i] == s[|s| - k + i]
    {
      assert r[i] == t[k - 1 - i];
      assert t[k - 1 - i] == rs[k - 1 - i];
    }
    assert r == s[|s| - k..];
  }

  /** The elements of `s` that satisfy `p`, in their original order. */
  function Filter<T>(s: seq<T>, p: T -> bool): (r: seq<T>)
    ensures |r| <= |s|
    ensures forall k :: 0 <= k < |r| ==> r[k] in s && p(r[k])
  {
    if |s| == 0 then []
    else if p(s[0]) then [s[0]] + Filter(s[1..], p)
    else
      assert s == [s[0]] + s[1..];
      Filter(s[1..], p)
  }

  /** An element is kept exactly when it occurs and satisfies `p`. */
  lemma {:induction false} FilterMembers<T>(s: seq<T>, p: T -> bool)
    ensures forall x :: x in Filter(s, p) <==> x in s && p(x)
  {
    if |s| > 0 {
      FilterMembers(s[1..], p);
      assert s == [s[0]] + s[1..];
    }
  }

  lemma {:induction false} FilterAppend<T>(a: seq<T>, b: seq<T>, p: T -> bool)
    ensures Filter(a + b, p) == Filter(a, p) + Filter(b, p)
  {
    if |a| == 0 {
      assert a + b == b;
    } else {
      assert (a + b)[0] == a[0];
      assert (a + b)[1..] == a[1..] + b;
      FilterAppend(a[1..], b, p);
    }
  }

  /** Filtering twice by the same condition is filtering once. */
  lemma {:induction false} FilterTwice<T>(s: seq<T>, p: T -> bool)
    ensures Filter(Filter(s, p), p) == Filter(s, p)
  {
    if |s| > 0 {
      FilterTwice(s[1..], p);
      if p(s[0]) {
        var f := Filter(s, p);
        assert f[0] == s[0] && f[1..] == Filter(s[1..], p);
      }
    }
  }

  /** `f` applied to every element. */
  function Map<A, B>(s: seq<A>, f: A --> B): (r: seq<B>)
    requires forall k :: 0 <= k < |s| ==> f.requires(s[k])
    ensures |r| == |s|
    ensures forall k :: 0 <= k < |s| ==> r[k] == f(s[k])
  {
    seq(|s|, k requires 0 <= k < |s| => f(s[k]))
  }

  lemma {:induction false} MapPrepend<A, B>(x: A, s: seq<A>, f: A -> B)
    ensures Map([x] + s, f) == [f(x)] + Map(s, f)
  {
  }

  lemma {:induction false} MapReverse<A, B>(s: seq<A>, f: A --> B)
    requires forall k :: 0 <= k < |s| ==> f.requires(s[k])
    ensures Map(Reverse(s), f) == Reverse(Map(s, f))
  {
  }

  /** `xs` and `ys` have the same length and are related position by position. */
  ghost predicate Pairwise<A, B>(xs: seq<A>, ys: seq<B>, rel: (A, B) -> bool) {
    |xs| == |ys| && forall i :: 0 <= i < |xs| ==> rel(xs[i], ys[i])
  }

  lemma {:induction false} PairwisePrepend<A, B>(x: A, xs: seq<A>, y: B, ys: seq<B>, rel: (A, B) -> bool)
    requires Pairwise(xs, ys, rel) && rel(x, y)
    ensures Pairwise([x] + xs, [y] + ys, rel)
  {
    forall i | 0 <= i < |xs| + 1
      ensures rel(([x] + xs)[i], ([y] + ys)[i])
    {
      if i > 0 {
        assert ([x] + xs)[i] == xs[i - 1] && ([y] + ys)[i] == ys[i - 1];
      }
    }
  }

  lemma {:induction false} PairwiseReverse<A, B>(xs: seq<A>, ys: seq<B>, rel: (A, B) -> bool)
    requires Pairwise(xs, ys, rel)
    ensures Pairwise(Reverse(xs), Reverse(ys), rel)
  {
  }

  /** An element-wise image is related to its source when every element is. */
  lemma {:induction false} PairwiseMap<A, B>(s: seq<A>, f: A -> B, rel: (B, A) -> bool)
    requires forall k :: 0 <= k < |s| ==> rel(f(s[k]), s[k])
    ensures Pairwise(Map(s, f), s, rel)
  {
  }
}

=== FILE: sql.dfy ===
/** The MySQL tables the message core reads and writes, as values. */
module Sql {
  import opened Base
  import opened Seqs
  import opened TimeFormat

  /** The public columns of a `user` row. */
  datatype Profile = Profile(name: string, displayName: string, avatarIcon: string)

  /** A `message` row. */
  datatype Message = Message(id: Int64, channelId: Int64, userId: Int64, content: string, createdAt: DateTime)

  /** The `message` rows in primary-key order, the `user` rows by id, the
      `channel` ids, and the message table's AUTO_INCREMENT counter. */
  datatype Db = Db(messages: seq<Message>, users: map<Int64, Profile>, channels: seq<Int64>, nextId: int)

  predicate IdsAscending(ms: seq<Message>) {
    forall i, j :: 0 <= i < j < |ms| ==> ms[i].id < ms[j].id
  }

  /** What the table always satisfies: ids are assigned by the counter,
      which stays within int64, and rows are kept in id order. */
  predicate Valid(db: Db) {
    && 1 <= db.nextId <= MaxInt64 + 1
    && (forall i :: 0 <= i < |db.messages| ==> 1 <= db.messages[i].id < db.nextId)
    && IdsAscending(db.messages)
  }

  /** `INSERT INTO message (...) VALUES (?, ?, ?, NOW())` followed by
      `LastInsertId`: the row gets the counter's value as its id. The
      insert fails once the counter has passed the int64 range. */
  function Insert(db: Db, channelId: Int64, userId: Int64, content: string, now: DateTime): (r: Result<(Db, Int64)>)
    requires Valid(db)
    ensures r.Err? <==> db.nextId > MaxInt64
    ensures r.Ok? ==> var (db', id) := r.value;
      && Valid(db')
      && db'.messages == db.messages + [Message(id, channelId, userId, content, now)]
      && id == db.nextId && db'.nextId == db.nextId + 1
      && (forall i :: 0 <= i < |db.messages| ==> db.messages[i].id < id)
      && db'.users == db.users && db'.channels == db.channels
  {
    if db.nextId > MaxInt64 then Err(StoreError)
    else
      var id: Int64 := db.nextId;
      Ok((db.(messages := db.messages + [Message(id, channelId, userId, content, now)], nextId := id + 1), id))
  }

  /** The messages of one channel, in table order. */
  function ChannelRows(ms: seq<Message>, ch: Int64): seq<Message> {
    Filter(ms, (m: Message) => m.channelId == ch)
  }

  /** A subsequence of id-ordered rows is id-ordered. */
  lemma {:induction false} FilterAscending(ms: seq<Message>, p: Message -> bool)
    requires IdsAscending(ms)
    ensures IdsAscending(Filter(ms, p))
  {
    if |ms| > 0 {
      FilterAscending(ms[1..], p);
      var rest := Filter(ms[1..], p);
      forall k | 0 <= k < |rest|
        ensures ms[0].id < rest[k].id
      {
        var j :| 0 <= j < |ms[1..]| && ms[1..][j] == rest[k];
        assert ms[j + 1] == rest[k];
      }
    }
  }

  /** The rows `queryResponse` selects, before the limit: newer than
      `lastId`, in the channel, and with an author in `user` (the query is
      an inner join), in table order. */
  function Matching(db: Db, ch: Int64, lastId: Int64): seq<Message> {
    Filter(db.messages, (m: Message) => m.id > lastId && m.channelId == ch && m.userId in db.users)
  }

  /** `SELECT ... WHERE m.id > ? AND m.channel_id = ? ORDER BY m.id DESC
      LIMIT 100`: the newest hundred matching rows, newest first. */
  function SelectAfter(db: Db, ch: Int64, lastId: Int64): (r: seq<Message>)
    requires Valid(db)
    ensures |r| == Min(100, |Matching(db, ch, lastId)|)
    ensures forall k :: 0 <= k < |r| ==> r[k].id > lastId && r[k].channelId == ch && r[k].userId in db.users
    ensures forall i, j :: 0 <= i < j < |r| ==> r[i].id > r[j].id
    ensures forall k :: 0 <= k < |r| ==> r[k] in db.messages
    ensures forall m :: m in Matching(db, ch, lastId) && m !in r ==> forall k :: 0 <= k < |r| ==> m.id < r[k].id
  {
    var p := (m: Message) => m.id > lastId && m.channelId == ch && m.userId in db.users;
    var matching := Filter(db.messages, p);
    FilterAscending(db.messages, p);
    FilterMembers(db.messages, p);
    NewestFirst(matching, 100);
    Take(Reverse(matching), 100)
  }

  /** The first `n` rows of the newest-first order of id-ordered rows:
      rows of the input, in descending id order, and the `n` highest, so
      every row left out has a smaller id than every row kept. */
  lemma {:induction false} NewestFirst(ms: seq<Message>, n: nat)
    requires IdsAscending(ms)
    ensures var t := Take(Reverse(ms), n);
      && (forall k :: 0 <= k < |t| ==> t[k] in ms)
      && (forall i, j :: 0 <= i < j < |t| ==> t[i].id > t[j].id)
      && (forall m :: m in ms && m !in t ==> forall k :: 0 <= k < |t| ==> m.id < t[k].id)
  {
    var rs := Reverse(ms);
    var t := Take(rs, n);
    forall k | 0 <= k < |t|
      ensures t[k] == ms[|ms| - 1 - k]
    {
      assert t[k] == rs[k];
    }
    forall j | |ms| - |t| <= j < |ms|
      ensures ms[j] in t
    {
      assert t[|ms| - 1 - j] == ms[j];
    }
  }

  /** The last `n` rows of id-ordered rows: rows of the input, still in
      id order, and the `n` highest, so every row left out has a smaller
      id than every row kept. */
  lemma {:induction false} SuffixHighest(ms: seq<Message>, n: nat)
    requires IdsAscending(ms) && n <= |ms|
    ensures var s := ms[|ms| - n..];
      && (forall k :: 0 <= k < |s| ==> s[k] in ms)
      && IdsAscending(s)
      && (forall m :: m in ms && m !in s ==> forall k :: 0 <= k < |s| ==> m.id < s[k].id)
  {
    var s := ms[|ms| - n..];
    forall k | 0 <= k < |s|
      ensures s[k] == ms[|ms| - n + k]
    {
    }
    forall j | |ms| - n <= j < |ms|
      ensures ms[j] in s
    {
      assert s[j - (|ms| - n)] == ms[j];
    }
  }
}

=== FILE: strings.dfy ===
/** The pieces of Go's `strings` package the message core relies on. */
module Strings {
  import opened Base

  /** How many times `c` occurs at or after position `from`. */
  function CountFrom(s: string, c: char, from: nat): nat
    requires from <= |s|
    decreases |s| - from
  {
    if from == |s| then 0 else (if s[from] == c then 1 else 0) + CountFrom(s, c, from + 1)
  }

  /** How many times `c` occurs in `s`. */
  function Count(s: string, c: char): nat {
    CountFrom(s, c, 0)
  }

  lemma {:induction false} CountFromAbsent(s: string, c: char, from: nat)
    requires from <= |s|
    requires forall k :: from <= k < |s| ==> s[k] != c
    ensures CountFrom(s, c, from) == 0
    decreases |s| - from
  {
    if from < |s| {
      CountFromAbsent(s, c, from + 1);
    }
  }

  /** Counting from `from` when the first `c` is at `i`. */
  lemma {:induction false} CountFromFirst(s: string, c: char, from: nat, i: nat)
    requires from <= i < |s| && s[i] == c
    requires forall k :: from <= k < i ==> s[k] != c
    ensures CountFrom(s, c, from) == 1 + CountFrom(s, c, i + 1)
    decreases i - from
  {
    if from < i {
      CountFromFirst(s, c, from + 1, i);
    }
  }

  /** The last position below `hi` holding `c`, or -1. */
  function LastIndexBelow(s: string, c: char, hi: nat): (i: int)
    requires hi <= |s|
    ensures -1 <= i < hi
    ensures 0 <= i ==> s[i] == c && forall k :: i < k < hi ==> s[k] != c
    ensures i == -1 ==> forall k :: 0 <= k < hi ==> s[k] != c
    decreases hi
  {
    if hi == 0 then -1
    else if s[hi - 1] == c then hi - 1
    else LastIndexBelow(s, c, hi - 1)
  }

  /** Go's `strings.LastIndexByte`: the last position of `c`, or -1. */
  function LastIndexOf(s: string, c: char): (i: int)
    ensures -1 <= i < |s|
    ensures 0 <= i ==> s[i] == c && forall k :: i < k < |s| ==> s[k] != c
    ensures i == -1 ==> forall k :: 0 <= k < |s| ==> s[k] != c
  {
    LastIndexBelow(s, c, |s|)
  }

  /** Splitting at the first `c` is unambiguous. */
  lemma {:induction false} SplitAtFirst(a: string, b: string, a': string, b': string, c: char)
    requires c !in a && c !in a'
    requires a + [c] + b == a' + [c] + b'
    ensures a == a' && b == b'
  {
    IndexFromAfter([], a, c, b);
    IndexFromAfter([], a', c, b');
    assert [] + a + [c] + b == a + [c] + b;
    assert [] + a' + [c] + b' == a' + [c] + b';
    assert a == (a + [c] + b)[..|a|];
    assert a' == (a' + [c] + b')[..|a'|];
    assert b == (a + [c] + b)[|a| + 1..];
    assert b' == (a' + [c] + b')[|a'| + 1..];
  }

  /** The pieces from position `from` on, with `sep` between each two. */
  function JoinFrom(parts: seq<string>, sep: char, from: nat): string
    requires from < |parts|
    decreases |parts| - from
  {
    if from == |parts| - 1 then parts[from]
    else parts[from] + [sep] + JoinFrom(parts, sep, from + 1)
  }

  /** `strings.Join` with a one-character separator. */
  function Join(parts: seq<string>, sep: char): string {
    if |parts| == 0 then "" else JoinFrom(parts, sep, 0)
  }

  /** Putting a piece in front shifts every position by one. */
  lemma {:induction false} JoinFromCons(x: string, rest: seq<string>, sep: char, from: nat)
    requires from < |rest|
    ensures JoinFrom([x] + rest, sep, from + 1) == JoinFrom(rest, sep, from)
    decreases |rest| - from
  {
    assert ([x] + rest)[from + 1] == rest[from];
    if from < |rest| - 1 {
      JoinFromCons(x, rest, sep, from + 1);
    }
  }

  /** `strings.IndexByte(s[from:], c)` counted from the start of `s`:
      the first position at or after `from` that holds `c`, or -1. */
  function IndexFrom(s: string, c: char, from: nat): (i: int)
    requires from <= |s|
    ensures i == -1 || (from <= i < |s| && s[i] == c)
    decreases |s| - from
  {
    if from == |s| then -1
    else if s[from] == c then from
    else IndexFrom(s, c, from + 1)
  }

  /** The position found is the first one, and -1 means there is none. */
  lemma {:induction false} IndexFromFirst(s: string, c: char, from: nat)
    requires from <= |s|
    ensures IndexFrom(s, c, from) >= 0 ==> forall k :: from <= k < IndexFrom(s, c, from) ==> s[k] != c
    ensures IndexFrom(s, c, from) == -1 ==> forall k :: from <= k < |s| ==> s[k] != c
    decreases |s| - from
  {
    if from < |s| && s[from] != c {
      IndexFromFirst(s, c, from + 1);
    }
  }

  /** The first `c` after a `c`-free stretch `a` sits right after it. */
  lemma {:induction false} IndexFromAfter(p: string, a: string, c: char, b: string)
    requires c !in a
    ensures IndexFrom(p + a + [c] + b, c, |p|) == |p| + |a|
  {
    var s := p + a + [c] + b;
    IndexFromFirst(s, c, |p|);
    assert s[|p| + |a|] == c;
    forall k | |p| <= k < |p| + |a|
      ensures s[k] != c
    {
      assert s[k] == a[k - |p|];
    }
  }

  /** `s[lo..hi]`, read position by position. */
  function Slice(s: string, lo: nat, hi: nat): (r: string)
    requires lo <= hi <= |s|
    ensures |r| == hi - lo
    ensures forall k :: 0 <= k < |r| ==> r[k] == s[lo + k]
  {
    seq(hi - lo, k requires 0 <= k < hi - lo => s[lo + k])
  }

  lemma {:induction false} SliceAt(s: string, lo: nat, i: nat, hi: nat)
    requires lo <= i < hi <= |s|
    ensures Slice(s, lo, hi) == Slice(s, lo, i) + [s[i]] + Slice(s, i + 1, hi)
  {
    var r := Slice(s, lo, i) + [s[i]] + Slice(s, i + 1, hi);
    forall k | 0 <= k < hi - lo
      ensures Slice(s, lo, hi)[k] == r[k]
    {
      if k > i - lo {
        assert r[k] == Slice(s, i + 1, hi)[k - (i - lo) - 1];
      }
    }
  }

  /** `strings.SplitN(s[from:], sep, n)`, scanning `s` by position: at
      most `n` pieces, the last of which keeps every remaining separator. */
  function SplitFrom(s: string, sep: char, n: nat, from: nat): (parts: seq<string>)
    requires from <= |s|
    ensures n == 0 ==> parts == []
    ensures n > 0 ==> 1 <= |parts| <= n
    decreases n
  {
    if n == 0 then []
    else if n == 1 then [Slice(s, from, |s|)]
    else
      var i := IndexFrom(s, sep, from);
      if i < 0 then [Slice(s, from, |s|)]
      else [Slice(s, from, i)] + SplitFrom(s, sep, n - 1, i + 1)
  }

  /** `strings.SplitN(s, sep, n)` with a one-character separator. */
  function SplitN(s: string, sep: char, n: nat): (parts: seq<string>)
    ensures n == 0 ==> parts == []
    ensures n > 0 ==> 1 <= |parts| <= n
  {
    SplitFrom(s, sep, n, 0)
  }

  lemma {:induction false} JoinSplitFrom(s: string, sep: char, n: nat, from: nat)
    requires 0 < n && from <= |s|
    ensures Join(SplitFrom(s, sep, n, from), sep) == Slice(s, from, |s|)
    decreases n
  {
    if n > 1 {
      var i := IndexFrom(s, sep, from);
      if i >= 0 {
        var piece, rest := Slice(s, from, i), SplitFrom(s, sep, n - 1, i + 1);
        JoinSplitFrom(s, sep, n - 1, i + 1);
        JoinFromCons(piece, rest, sep, 0);
        assert Join([piece] + rest, sep) == piece + [sep] + Join(rest, sep);
        SliceAt(s, from, i, |s|);
      }
    }
  }

  /** Joining the pieces gives back the text that was split. */
  lemma {:induction false} JoinSplitN(s: string, sep: char, n: nat)
    requires n > 0
    ensures Join(SplitN(s, sep, n), sep) == s
  {
    JoinSplitFrom(s, sep, n, 0);
    assert Slice(s, 0, |s|) == s;
  }

  lemma {:induction false} SplitFromPieces(s: string, sep: char, n: nat, from: nat)
    requires from <= |s|
    ensures forall k :: 0 <= k < |SplitFrom(s, sep, n, from)| - 1 ==> sep !in SplitFrom(s, sep, n, from)[k]
    decreases n
  {
    if n > 1 {
      var i := IndexFrom(s, sep, from);
      IndexFromFirst(s, sep, from);
      if i >= 0 {
        var rest := SplitFrom(s, sep, n - 1, i + 1);
        SplitFromPieces(s, sep, n - 1, i + 1);
        var piece := Slice(s, from, i);
        assert sep !in piece by {
          forall k | 0 <= k < |piece|
            ensures piece[k] != sep
          {
            assert piece[k] == s[from + k];
          }
        }
        var parts := [piece] + rest;
        assert SplitFrom(s, sep, n, from) == parts;
        forall k | 0 <= k < |parts| - 1
          ensures sep !in parts[k]
        {
          if k > 0 {
            assert parts[k] == rest[k - 1];
          }
        }
      }
    }
  }

  /** Every piece but the last is free of the separator. */
  lemma {:induction false} SplitNPieces(s: string, sep: char, n: nat)
    ensures forall k :: 0 <= k < |SplitN(s, sep, n)| - 1 ==> sep !in SplitN(s, sep, n)[k]
  {
    assert SplitN(s, sep, n) == SplitFrom(s, sep, n, 0);
    SplitFromPieces(s, sep, n, 0);
  }

  lemma {:induction false} SplitFromCount(s: string, sep: char, n: nat, from: nat)
    requires 0 < n && from <= |s|
    ensures |SplitFrom(s, sep, n, from)| == Min(n, CountFrom(s, sep, from) + 1)
    decreases n
  {
    if n > 1 {
      var i := IndexFrom(s, sep, from);
      IndexFromFirst(s, sep, from);
      if i < 0 {
        CountFromAbsent(s, sep, from);
      } else {
        SplitFromCount(s, sep, n - 1, i + 1);
        CountFromFirst(s, sep, from, i);
      }
    }
  }

  /** `n` pieces at most, and fewer only when the separators run out. */
  lemma {:induction false} SplitNCount(s: string, sep: char, n: nat)
    requires n > 0
    ensures |SplitN(s, sep, n)| == Min(n, Count(s, sep) + 1)
  {
    SplitFromCount(s, sep, n, 0);
  }

  /** A `sep`-free piece followed by `sep` is split off as the first piece. */
  lemma {:induction false} SplitFromStep(p: string, head: string, sep: char, rest: string, m: nat)
    requires sep !in head && m >= 1
    ensures var s := p + head + [sep] + rest;
      SplitFrom(s, sep, m + 1, |p|) == [head] + SplitFrom(s, sep, m, |p| + |head| + 1)
  {
    var s := p + head + [sep] + rest;
    IndexFromAfter(p, head, sep, rest);
    assert Slice(s, |p|, |p| + |head|) == head;
  }

  /** The last piece is whatever remains. */
  lemma {:induction false} SplitFromLast(p: string, last: string, sep: char)
    ensures SplitFrom(p + last, sep, 1, |p|) == [last]
  {
    assert Slice(p + last, |p|, |p + last|) == last;
  }

  /** The last piece of a join, split alone. */
  lemma {:induction false} SplitJoinLast(p: string, parts: seq<string>, sep: char, i: nat)
    requires i == |parts| - 1
    ensures SplitFrom(p + JoinFrom(parts, sep, i), sep, |parts| - i, |p|) == parts[i..]
  {
    SplitFromLast(p, parts[i], sep);
    assert parts[i..] == [parts[i]];
  }

  /** A join of two or more: the first piece, the separator, the rest. */
  lemma {:induction false} JoinFromAfter(parts: seq<string>, sep: char, i: nat)
    requires i < |parts| - 1
    ensures JoinFrom(parts, sep, i) == parts[i] + [sep] + JoinFrom(parts, sep, i + 1)
  {
  }

  lemma {:induction false} SuffixCons(parts: seq<string>, i: nat)
    requires i < |parts|
    ensures [parts[i]] + parts[i + 1..] == parts[i..]
  {
  }

  /** A `sep`-free piece, then `sep`, in front of text whose split is
      `tail`. */
  lemma {:induction false} SplitFromPrepend(p: string, head: string, sep: char, rest: string, tail: seq<string>, m: nat)
    requires sep !in head && m == |tail| >= 1
    requires SplitFrom(p + head + [sep] + rest, sep, m, |p| + |head| + 1) == tail
    ensures SplitFrom(p + (head + [sep] + rest), sep, m + 1, |p|) == [head] + tail
  {
    assert p + (head + [sep] + rest) == p + head + [sep] + rest;
    SplitFromStep(p, head, sep, rest, m);
  }

  /** A `sep`-free piece in front of text that splits into the pieces
      after it. */
  lemma {:induction false} SplitJoinStep(p: string, parts: seq<string>, sep: char, i: nat)
    requires i < |parts| - 1 && sep !in parts[i]
    requires SplitFrom(p + parts[i] + [sep] + JoinFrom(parts, sep, i + 1), sep, |parts| - (i + 1),
                       |p| + |parts[i]| + 1) == parts[i + 1..]
    ensures SplitFrom(p + JoinFrom(parts, sep, i), sep, |parts| - i, |p|) == parts[i..]
  {
    JoinFromAfter(parts, sep, i);
    SplitFromPrepend(p, parts[i], sep, JoinFrom(parts, sep, i + 1), parts[i + 1..], |parts| - (i + 1));
    SuffixCons(parts, i);
  }

  /** Splitting the join of `parts[i..]` placed after `p` gives back
      those pieces when all but the last are free of `sep`. */
  lemma {:induction false} SplitFromJoin(p: string, parts: seq<string>, sep: char, i: nat)
    requires i < |parts|
    requires forall k :: i <= k < |parts| - 1 ==> sep !in parts[k]
    ensures SplitFrom(p + JoinFrom(parts, sep, i), sep, |parts| - i, |p|) == parts[i..]
    decreases |parts| - i
  {
    if i == |parts| - 1 {
      SplitJoinLast(p, parts, sep, i);
    } else {
      SplitFromJoin(p + parts[i] + [sep], parts, sep, i + 1);
      SplitJoinStep(p, parts, sep, i);
    }
  }

  /** Joining at most `n` pieces, all but the last free of `sep`, and
      splitting the result into `n` pieces gives the pieces back. */
  lemma {:induction false} SplitNJoin(parts: seq<string>, sep: char)
    requires |parts| >= 1
    requires forall k :: 0 <= k < |parts| - 1 ==> sep !in parts[k]
    ensures SplitN(Join(parts, sep), sep, |parts|) == parts
  {
    SplitFromJoin([], parts, sep, 0);
    assert [] + Join(parts, sep) == Join(parts, sep);
    assert parts[0..] == parts;
  }

  /** `strings.HasSuffix`. */
  predicate HasSuffix(s: string, suffix: string) {
    |suffix| <= |s| && s[|s| - |suffix|..] == suffix
  }
}

=== FILE: timeformat.dfy ===
/** Go's `time.Time.Format` for the one layout the message log uses,
    "2006/01/02 15:04:05". */
module TimeFormat {
  import opened Base
  import opened Decimal

  /** The calendar fields of a `time.Time` in the process's zone. */
  datatype DateTime = DateTime(year: int, month: int, day: int, hour: int, minute: int, second: int)

  /** The field ranges of any real `time.Time` whose year has four digits. */
  predicate Normalized(t: DateTime) {
    && 0 <= t.year <= 9999
    && 1 <= t.month <= 12
    && 1 <= t.day <= 31
    && 0 <= t.hour <= 23
    && 0 <= t.minute <= 59
    && 0 <= t.second <= 59
  }

  function Zeros(k: nat): (z: string)
    ensures |z| == k
  {
    seq(k, _ => '0')
  }

  /** The time package's `appendInt(b, x, width)`: a sign for negative
      values, then the digits of the magnitude with zeros in front up to
      `width` characters. */
  function PadInt(x: int, width: nat): string {
    var d := if x < 0 then Digits(-x) else Digits(x);
    var padded := if |d| >= width then d else Zeros(width - |d|) + d;
    if x < 0 then "-" + padded else padded
  }

  /** `t.Format("2006/01/02 15:04:05")`. */
  function Format(t: DateTime): string {
    PadInt(t.year, 4) + "/" + PadInt(t.month, 2) + "/" + PadInt(t.day, 2) + " " +
    PadInt(t.hour, 2) + ":" + PadInt(t.minute, 2) + ":" + PadInt(t.second, 2)
  }

  /** The fixed-width field `s[lo..hi]`, if it is all digits. */
  function Field(s: string, lo: nat, hi: nat): (r: Option<int>)
    requires lo <= hi <= |s|
    ensures r.Some? <==> DigitsBetween(s, lo, hi)
  {
    if DigitsBetween(s, lo, hi) then Some(ValueBetween(s, lo, hi)) else None
  }

  /** Reads back the fixed-width fields of a formatted time, the way
      `time.Parse` with the same layout would. */
  function Parse(s: string): Option<DateTime> {
    if |s| == 19 && s[4] == '/' && s[7] == '/' && s[10] == ' ' && s[13] == ':' && s[16] == ':' then
      match (Field(s, 0, 4), Field(s, 5, 7), Field(s, 8, 10), Field(s, 11, 13), Field(s, 14, 16), Field(s, 17, 19))
      case (Some(y), Some(mo), Some(d), Some(h), Some(mi), Some(se)) => Some(DateTime(y, mo, d, h, mi, se))
      case _ => None
    else None
  }

  lemma {:induction false} PadIntChars(x: int, width: nat)
    ensures forall i :: 0 <= i < |PadInt(x, width)| ==> IsDigit(PadInt(x, width)[i]) || PadInt(x, width)[i] == '-'
  {
  }

  /** A formatted time never contains the log-entry delimiter. */
  lemma {:induction false} FormatHasNoAt(t: DateTime)
    ensures '@' !in Format(t)
  {
    PadIntChars(t.year, 4);
    PadIntChars(t.month, 2);
    PadIntChars(t.day, 2);
    PadIntChars(t.hour, 2);
    PadIntChars(t.minute, 2);
    PadIntChars(t.second, 2);
    assert '@' !in PadInt(t.year, 4) && '@' !in PadInt(t.month, 2) && '@' !in PadInt(t.day, 2);
    assert '@' !in PadInt(t.hour, 2) && '@' !in PadInt(t.minute, 2) && '@' !in PadInt(t.second, 2);
  }

  lemma {:induction false} ZerosValue(k: nat, s: string)
    requires AllDigits(s)
    ensures AllDigits(Zeros(k) + s) && ValueOf(Zeros(k) + s) == ValueOf(s)
  {
    if k > 0 {
      assert Zeros(k) + s == ['0'] + (Zeros(k - 1) + s);
      ZerosValue(k - 1, s);
      ValueOfLeadingZero(Zeros(k - 1) + s);
    } else {
      assert Zeros(k) + s == s;
    }
  }

  lemma {:induction false} DigitsLength(x: nat, width: nat)
    requires width == 2 || width == 4
    requires width == 2 ==> x < 100
    requires width == 4 ==> x < 10000
    ensures |Digits(x)| <= width
  {
    if x >= 10 {
      assert Digits(x) == Digits(x / 10) + [DigitChar(x % 10)];
      if x / 10 >= 10 {
        assert Digits(x / 10) == Digits(x / 100) + [DigitChar(x / 10 % 10)];
        if x / 100 >= 10 {
          assert Digits(x / 100) == Digits(x / 1000) + [DigitChar(x / 100 % 10)];
        }
      }
    }
  }

  lemma {:induction false} PadIntLength(x: nat, width: nat)
    requires width == 2 || width == 4
    requires width == 2 ==> x < 100
    requires width == 4 ==> x < 10000
    ensures |PadInt(x, width)| == width
  {
    DigitsLength(x, width);
  }

  /** A field in range pads to exactly `width` digits that denote it. */
  lemma {:induction false} PadIntField(x: nat, width: nat)
    requires width == 2 || width == 4
    requires width == 2 ==> x < 100
    requires width == 4 ==> x < 10000
    ensures |PadInt(x, width)| == width
    ensures AllDigits(PadInt(x, width)) && ValueOf(PadInt(x, width)) == x
  {
    DigitsLength(x, width);
    ValueOfDigits(x);
    ZerosValue(width - |Digits(x)|, Digits(x));
  }

  /** A normalized time formats to 19 characters. */
  lemma {:induction false} FormatLength(t: DateTime)
    requires Normalized(t)
    ensures |Format(t)| == 19
  {
    PadIntField(t.year, 4);
    PadIntField(t.month, 2);
    PadIntField(t.day, 2);
    PadIntField(t.hour, 2);
    PadIntField(t.minute, 2);
    PadIntField(t.second, 2);
  }

  /** The layout "2006/01/02 15:04:05" filled with fields of the right widths. */
  lemma {:induction false} Layout(y: string, mo: string, d: string, h: string, mi: string, se: string)
    requires |y| == 4 && |mo| == 2 && |d| == 2 && |h| == 2 && |mi| == 2 && |se| == 2
    ensures var s := y + "/" + mo + "/" + d + " " + h + ":" + mi + ":" + se;
      && |s| == 19
      && s[4] == '/' && s[7] == '/' && s[10] == ' ' && s[13] == ':' && s[16] == ':'
      && (forall k :: 0 <= k < 4 ==> s[k] == y[k])
      && (forall k :: 0 <= k < 2 ==> s[5 + k] == mo[k])
      && (forall k :: 0 <= k < 2 ==> s[8 + k] == d[k])
      && (forall k :: 0 <= k < 2 ==> s[11 + k] == h[k])
      && (forall k :: 0 <= k < 2 ==> s[14 + k] == mi[k])
      && (forall k :: 0 <= k < 2 ==> s[17 + k] == se[k])
  {
  }

  /** Where each field sits in the formatted text of a normalized time. */
  lemma {:induction false} FormatFields(t: DateTime)
    requires Normalized(t)
    ensures var s := Format(t);
      && |s| == 19
      && s[4] == '/' && s[7] == '/' && s[10] == ' ' && s[13] == ':' && s[16] == ':'
      && (forall k :: 0 <= k < 4 ==> s[k] == PadInt(t.year, 4)[k])
      && (forall k :: 0 <= k < 2 ==> s[5 + k] == PadInt(t.month, 2)[k])
      && (forall k :: 0 <= k < 2 ==> s[8 + k] == PadInt(t.day, 2)[k])
      && (forall k :: 0 <= k < 2 ==> s[11 + k] == PadInt(t.hour, 2)[k])
      && (forall k :: 0 <= k < 2 ==> s[14 + k] == PadInt(t.minute, 2)[k])
      && (forall k :: 0 <= k < 2 ==> s[17 + k] == PadInt(t.second, 2)[k])
  {
    PadIntLength(t.year, 4);
    PadIntLength(t.month, 2);
    PadIntLength(t.day, 2);
    PadIntLength(t.hour, 2);
    PadIntLength(t.minute, 2);
    PadIntLength(t.second, 2);
    Layout(PadInt(t.year, 4), PadInt(t.month, 2), PadInt(t.day, 2),
           PadInt(t.hour, 2), PadInt(t.minute, 2), PadInt(t.second, 2));
  }

  /** Text laid out with digit fields denoting the fields of `t` parses to `t`. */
  lemma {:induction false} ParseFields(s: string, y: string, mo: string, d: string, h: string, mi: string, se: string, t: DateTime)
    requires |s| == 19 && s[4] == '/' && s[7] == '/' && s[10] == ' ' && s[13] == ':' && s[16] == ':'
    requires |y| == 4 && |mo| == 2 && |d| == 2 && |h| == 2 && |mi| == 2 && |se| == 2
    requires forall k :: 0 <= k < 4 ==> s[k] == y[k]
    requires forall k :: 0 <= k < 2 ==> s[5 + k] == mo[k]
    requires forall k :: 0 <= k < 2 ==> s[8 + k] == d[k]
    requires forall k :: 0 <= k < 2 ==> s[11 + k] == h[k]
    requires forall k :: 0 <= k < 2 ==> s[14 + k] == mi[k]
    requires forall k :: 0 <= k < 2 ==> s[17 + k] == se[k]
    requires AllDigits(y) && AllDigits(mo) && AllDigits(d) && AllDigits(h) && AllDigits(mi) && AllDigits(se)
    requires ValueOf(y) == t.year && ValueOf(mo) == t.month && ValueOf(d) == t.day
    requires ValueOf(h) == t.hour && ValueOf(mi) == t.minute && ValueOf(se) == t.second
    ensures Parse(s) == Some(t)
  {
    ValueBetweenShift(s, 0, y);
    ValueBetweenShift(s, 5, mo);
    ValueBetweenShift(s, 8, d);
    ValueBetweenShift(s, 11, h);
    ValueBetweenShift(s, 14, mi);
    ValueBetweenShift(s, 17, se);
  }

  /** The formatted text of a normalized time determines that time. */
  lemma {:induction false} FormatParse(t: DateTime)
    requires Normalized(t)
    ensures Parse(Format(t)) == Some(t)
  {
    FormatFields(t);
    PadIntField(t.year, 4);
    PadIntField(t.month, 2);
    PadIntField(t.day, 2);
    PadIntField(t.hour, 2);
    PadIntField(t.minute, 2);
    PadIntField(t.second, 2);
    ParseFields(Format(t), PadInt(t.year, 4), PadInt(t.month, 2), PadInt(t.day, 2),
                PadInt(t.hour, 2), PadInt(t.minute, 2), PadInt(t.second, 2), t);
  }
}

=== FILE: writepath.dfy ===
/** The two writers of the message log: `addMessage` (behind
    `postMessage`) and the reseed in `getInitialize`. */
module WritePath {
  import opened Base
  import opened Decimal
  import opened Seqs
  import opened TimeFormat
  import opened Codec
  import opened Redis
  import opened Sql
  import opened MessageLog

  /** LPUSH onto one channel's log leaves every other channel's log alone. */
  lemma {:induction false} PushLeavesOtherLogs(kv: Store, ch: Int64, entry: string)
    ensures forall c: Int64 :: c != ch ==> Log(LPush(kv, KeyMessages(ch), entry), c) == Log(kv, c)
  {
    forall c: Int64 | c != ch
      ensures Log(LPush(kv, KeyMessages(ch), entry), c) == Log(kv, c)
    {
      KeyMessagesInjective(c, ch);
    }
  }

  /** `addMessage`: the durable insert assigns the id (its row is stamped
      with the database clock `dbNow`), then the entry, stamped with the
      process clock `now`, becomes the head of the channel's log. */
  function AddMessage(db: Db, kv: Store, channelId: Int64, userId: Int64, content: string,
                      dbNow: DateTime, now: DateTime): (r: Result<(Db, Store)>)
    requires Valid(db)
    ensures r.Err? <==> db.nextId > MaxInt64
    ensures r.Ok? ==> var (db', kv') := r.value;
      && Valid(db')
      && |db'.messages| == |db.messages| + 1
      && var m := db'.messages[|db.messages|];
      && db'.messages == db.messages + [m]
      && m == Message(m.id, channelId, userId, content, dbNow)
      && (forall i :: 0 <= i < |db.messages| ==> db.messages[i].id < m.id)
      && m.id == db.nextId && db'.nextId == m.id + 1
      && db'.users == db.users && db'.channels == db.channels
      && |Log(kv', channelId)| == |Log(kv, channelId)| + 1
      && Log(kv', channelId)[1..] == Log(kv, channelId)
      && Split(Log(kv', channelId)[0]) == Ok(LogEntry(m.id, userId, content, Format(now)))
      && (forall c: Int64 :: c != channelId ==> Log(kv', c) == Log(kv, c))
      && kv'.strings == kv.strings
  {
    match Insert(db, channelId, userId, content, dbNow)
    case Err(e) => Err(e)
    case Ok((db', id)) =>
      var entry := Unify(id, userId, content, now);
      SplitUnify(id, userId, content, now);
      PushLeavesOtherLogs(kv, channelId, entry);
      Ok((db', LPush(kv, KeyMessages(channelId), entry)))
  }

  /** `postMessage` after login: an empty message or a channel id that
      `strconv.Atoi` rejects is refused before anything is written. */
  function PostMessage(db: Db, kv: Store, userId: Int64, message: string, channelIdText: string,
                       dbNow: DateTime, now: DateTime): (r: Result<(Db, Store)>)
    requires Valid(db)
    ensures message == "" ==> r == Err(Forbidden)
    ensures message != "" && ParseInt(channelIdText).None? ==> r == Err(Forbidden)
    ensures message != "" && ParseInt(channelIdText).Some? ==>
      r == AddMessage(db, kv, ParseInt(channelIdText).value, userId, message, dbNow, now)
    ensures r.Ok? ==> |r.value.0.messages| == |db.messages| + 1
    ensures r.Ok? ==>
      && message != ""
      && ParseInt(channelIdText).Some?
      && r == AddMessage(db, kv, ParseInt(channelIdText).value, userId, message, dbNow, now)
  {
    if message == "" then Err(Forbidden)
    else
      match ParseInt(channelIdText)
      case None => Err(Forbidden)
      case Some(ch) => AddMessage(db, kv, ch, userId, message, dbNow, now)
  }

  /** The channel written to: its log gains the new entry on top, its
      rows gain the new row at the end, so the mirror is kept. */
  lemma {:induction false} PushMirrors(log: seq<string>, rows: seq<Message>, entry: string, m: Message)
    requires LogMirrors(log, rows)
    requires EntryOf(entry, m)
    ensures LogMirrors([entry] + log, rows + [m])
  {
    ReverseAppend(rows, [m]);
    assert Reverse([m]) == [m];
    PairwisePrepend(entry, log, m, Reverse(rows), EntryOf);
  }

  /** A write keeps every log mirroring its channel's rows. */
  lemma {:induction false} AddMessageMirrored(db: Db, kv: Store, channelId: Int64, userId: Int64, content: string,
                           dbNow: DateTime, now: DateTime)
    requires Valid(db) && Mirrored(db, kv)
    requires db.nextId <= MaxInt64
    ensures var (db', kv') := AddMessage(db, kv, channelId, userId, content, dbNow, now).value;
      Mirrored(db', kv')
  {
    var (db', kv') := AddMessage(db, kv, channelId, userId, content, dbNow, now).value;
    var m := db'.messages[|db.messages|];
    var entry := Log(kv', channelId)[0];
    assert EntryOf(entry, m);
    forall c: Int64
      ensures LogMirrors(Log(kv', c), ChannelRows(db'.messages, c))
    {
      assert LogMirrors(Log(kv, c), ChannelRows(db.messages, c));
      if c == channelId {
        assert Log(kv', c) == [entry] + Log(kv, c);
      }
      AppendMirrors(db.messages, m, entry, Log(kv, c), Log(kv', c), c);
    }
  }

  /** One channel's log after a new row `m` is appended to the table: the
      row's channel gains its entry on top, any other channel is untouched,
      and either way the log still mirrors the channel's rows. */
  lemma {:induction false} AppendMirrors(rows: seq<Message>, m: Message, entry: string,
                                         log: seq<string>, log': seq<string>, c: Int64)
    requires LogMirrors(log, ChannelRows(rows, c))
    requires m.channelId == c ==> EntryOf(entry, m) && log' == [entry] + log
    requires m.channelId != c ==> log' == log
    ensures LogMirrors(log', ChannelRows(rows + [m], c))
  {
    FilterAppend(rows, [m], (x: Message) => x.channelId == c);
    if m.channelId == c {
      assert ChannelRows(rows + [m], c) == ChannelRows(rows, c) + [m];
      PushMirrors(log, ChannelRows(rows, c), entry, m);
    } else {
      assert ChannelRows(rows + [m], c) == ChannelRows(rows, c);
    }
  }

  /** Cursors stay within their logs when no cursor is written and no
      log gets shorter. */
  lemma {:induction false} CursorsBoundedGrow(kv: Store, kv': Store)
    requires CursorsBounded(kv)
    requires kv'.strings == kv.strings
    requires forall c: Int64 :: LLen(kv, KeyMessages(c)) <= LLen(kv', KeyMessages(c))
    ensures CursorsBounded(kv')
  {
    forall u: Int64, c: Int64
      ensures Cursor(kv', u, c).Ok? && 0 <= Cursor(kv', u, c).value <= LLen(kv', KeyMessages(c))
    {
      assert Cursor(kv', u, c) == Cursor(kv, u, c);
    }
  }

  /** A write keeps the store consistent: the new entry mirrors the new
      row, no cursor changes and no log gets shorter. */
  lemma {:induction false} AddMessageConsistent(db: Db, kv: Store, channelId: Int64, userId: Int64, content: string,
                             dbNow: DateTime, now: DateTime)
    requires Consistent(db, kv)
    requires db.nextId <= MaxInt64
    ensures var (db', kv') := AddMessage(db, kv, channelId, userId, content, dbNow, now).value;
      Consistent(db', kv')
  {
    var (db', kv') := AddMessage(db, kv, channelId, userId, content, dbNow, now).value;
    AddMessageMirrored(db, kv, channelId, userId, content, dbNow, now);
    forall c: Int64
      ensures LLen(kv, KeyMessages(c)) <= LLen(kv', KeyMessages(c))
    {
      if c != channelId {
        assert Log(kv', c) == Log(kv, c);
      }
    }
    CursorsBoundedGrow(kv, kv');
  }

  /** A post of a non-empty message to a channel id `Atoi` accepts, while
      ids remain, succeeds; it keeps the store and the log consistent, and
      the posted text is the new last row and the new head of the
      channel's log, attributed to the session user. */
  lemma {:induction false} PostMessageConsistent(db: Db, kv: Store, userId: Int64, message: string,
                                                 channelIdText: string, dbNow: DateTime, now: DateTime)
    requires Consistent(db, kv)
    requires message != "" && ParseInt(channelIdText).Some? && db.nextId <= MaxInt64
    ensures PostMessage(db, kv, userId, message, channelIdText, dbNow, now).Ok?
    ensures var (db', kv') := PostMessage(db, kv, userId, message, channelIdText, dbNow, now).value;
      && Consistent(db', kv')
      && var ch := ParseInt(channelIdText).value;
      && var m := db'.messages[|db'.messages| - 1];
      && m.channelId == ch && m.userId == userId && m.content == message
      && Split(Log(kv', ch)[0]) == Ok(LogEntry(m.id, userId, message, Format(now)))
  {
    var ch := ParseInt(channelIdText).value;
    AddMessageConsistent(db, kv, ch, userId, message, dbNow, now);
  }

  // ----- reseed -----

  /** What survives the `DELETE ... WHERE id > ...` statements of
      `getInitialize`: messages up to id 10000, users up to 1000, channels
      up to 10. The AUTO_INCREMENT counter is not reset by DELETE. */
  function Truncate(db: Db): Db {
    db.(messages := Filter(db.messages, (m: Message) => m.id <= 10000),
        users := map u | u in db.users && u <= 1000 :: db.users[u],
        channels := Filter(db.channels, (c: Int64) => c <= 10))
  }

  /** LPUSH of every message, in table order, onto its channel's log. */
  function Replay(kv: Store, ms: seq<Message>): (r: Store)
    ensures r.strings == kv.strings
    decreases |ms|
  {
    if |ms| == 0 then kv
    else Replay(LPush(kv, KeyMessages(ms[0].channelId), Encode(ms[0])), ms[1..])
  }

  /** After replaying messages in order, each channel's log is that
      channel's messages newest first, on top of what was there. */
  lemma {:induction false} ReplayLog(kv: Store, ms: seq<Message>, c: Int64)
    ensures Log(Replay(kv, ms), c) == Reverse(Entries(ChannelRows(ms, c))) + Log(kv, c)
    decreases |ms|
  {
    if |ms| == 0 {
      assert Entries(ChannelRows(ms, c)) == [];
    } else {
      var m := ms[0];
      var e := Encode(m);
      var kv1 := LPush(kv, KeyMessages(m.channelId), e);
      assert Replay(kv, ms) == Replay(kv1, ms[1..]);
      ReplayLog(kv1, ms[1..], c);
      var rest := ChannelRows(ms[1..], c);
      if m.channelId == c {
        assert ChannelRows(ms, c) == [m] + rest;
        MapPrepend(m, rest, Encode);
        PushAfterReversed(e, Entries(rest), Log(kv, c));
      } else {
        assert ChannelRows(ms, c) == rest;
        PushLeavesOtherLogs(kv, m.channelId, e);
      }
    }
  }

  /** `getInitialize`: truncate the tables, FLUSHDB, and rebuild every log
      from `SELECT * FROM message`. The result does not depend on what the
      cache held before. */
  function Reinitialize(db: Db, kv: Store): (r: (Db, Store))
    ensures r.1.strings == map[]
    ensures forall c: Int64 :: Log(r.1, c) == Reverse(Entries(ChannelRows(r.0.messages, c)))
    ensures forall m :: m in r.0.messages <==> m in db.messages && m.id <= 10000
    ensures forall u :: u in r.0.users <==> u in db.users && u <= 1000
    ensures forall u :: u in r.0.users ==> r.0.users[u] == db.users[u]
    ensures forall c :: c in r.0.channels <==> c in db.channels && c <= 10
    ensures r.0.nextId == db.nextId
  {
    var db' := Truncate(db);
    FilterMembers(db.messages, (m: Message) => m.id <= 10000);
    FilterMembers(db.channels, (c: Int64) => c <= 10);
    var kv' := Replay(FlushDb(kv), db'.messages);
    forall c: Int64
      ensures Log(kv', c) == Reverse(Entries(ChannelRows(db'.messages, c)))
    {
      ReplayLog(FlushDb(kv), db'.messages, c);
    }
    (db', kv')
  }

  /** A stored message's log entry decodes back to it. */
  lemma {:induction false} EncodeEntryOf(m: Message)
    ensures EntryOf(Encode(m), m)
  {
    SplitUnify(m.id, m.userId, m.content, m.createdAt);
  }

  /** A log rebuilt from a channel's rows mirrors them. */
  lemma {:induction false} RebuiltLogMirrors(rows: seq<Message>)
    ensures LogMirrors(Reverse(Entries(rows)), rows)
  {
    forall k | 0 <= k < |rows|
      ensures EntryOf(Encode(rows[k]), rows[k])
    {
      EncodeEntryOf(rows[k]);
    }
    PairwiseMap(rows, Encode, EntryOf);
    PairwiseReverse(Entries(rows), rows, EntryOf);
  }

  /** Truncating a valid table leaves it valid. */
  lemma {:induction false} TruncateValid(db: Db)
    requires Valid(db)
    ensures Valid(Truncate(db))
  {
    FilterAscending(db.messages, (m: Message) => m.id <= 10000);
  }

  /** Whatever the cache held, the reseed leaves the pair consistent: every
      log mirrors its channel and every cursor is gone (reads as 0). */
  lemma {:induction false} ReinitializeConsistent(db: Db, kv: Store)
    requires Valid(db)
    ensures Consistent(Reinitialize(db, kv).0, Reinitialize(db, kv).1)
  {
    var (db', kv') := Reinitialize(db, kv);
    TruncateValid(db);
    forall c: Int64
      ensures LogMirrors(Log(kv', c), ChannelRows(db'.messages, c))
    {
      RebuiltLogMirrors(ChannelRows(db'.messages, c));
    }
    forall u: Int64, c: Int64
      ensures Cursor(kv', u, c).Ok? && 0 <= Cursor(kv', u, c).value <= LLen(kv', KeyMessages(c))
    {
      assert Get(kv', KeyHaveread(u, c)).None?;
    }
  }

  /** The reseed is idempotent: running `/initialize` twice leaves the same
      tables and the same cache as running it once. */
  lemma {:induction false} ReinitializeIdempotent(db: Db, kv: Store)
    ensures var (db1, kv1) := Reinitialize(db, kv);
      Reinitialize(db1, kv1) == (db1, kv1)
  {
    var (db1, kv1) := Reinitialize(db, kv);
    FilterTwice(db.messages, (m: Message) => m.id <= 10000);
    FilterTwice(db.channels, (c: Int64) => c <= 10);
    assert Truncate(db1) == db1;
  }
}
